=== FILE: README.md ===
# Resilient stream client: reconnect and retry state machine

A Dafny model of `arclient.go`, a thin wrapper around a stream connection. The wrapper provides:

- delimiter reads out of a buffer;
- writes that are retried;
- reconnection with exponential backoff when the connection fails;
- a bounded number of attempts per pass. Each re-entry (lines 73 and 97) restarts the count and the backoff, so a single call has no overall bound. See "Backoff reset" and "Read scratch is empty" below.

## How the model works

The network, the clock and the connection handles are replaced by an **environment**. The environment is one finite sequence of answers, and each transport call consumes the next one:

- a write is accepted or fails;
- a read succeeds, times out, or fails in some other way;
- a dial succeeds with a fresh connection id, or fails.

Every operation is a pure function of the environment it is given. The shapes differ:

- `ReadString` and `Write` take the client and the environment. They return an `Outcome` holding four things:
  - the result: `Ok(value)`, `ErrMaxRetries` or `EnvExhausted`;
  - the new client;
  - the environment left over;
  - a trace of what the operation did: sleeps with their durations, dials, and reads and writes, each tagged with the connection it went through.
- `Dial` takes only the environment. It returns an `Opened`: a connected client with the rest of the environment, a refused dial, or no answer. It has no trace.
- `Reconnect` takes the client and the environment. It returns a `Redial`: a `RedialStatus` (`Redialed`, `RedialFailed` or `RedialUnanswered`), the new client, the rest of the environment, and its trace.
- One pass of a retry loop (`ReadPass`, `TryRead`, `WritePass`) returns a `Pass`: how the pass ended (`Reenter`, `Exhausted`, `TimedOut` or `Stuck`), the client, the rest of the environment, the trace, and the number of iterations used.

If the environment has no answer, or an answer of the wrong kind, for a call `ReadString` or `Write` makes, the result is `EnvExhausted`. This means the run is undecided within the environment given. The source's re-entries at lines 73 and 97 start the operation over with a fresh counter and a fresh backoff. In the model they terminate because each re-entry consumes at least one answer.

### Modules

| module | file | contents |
|---|---|---|
| `Events` | `events.dfy` | bytes, connection ids, the answer types, and taking the next answer |
| `Trace` | `trace.dfy` | trace steps; the projections `Answers`, `Sleeps`, `Redials` and `Tries`; the step order the retry loops impose (`Protocol`); the delay in force (`Paced`) and the live connection (`OnLive`) along a trace |
| `Backoff` | `backoff.dfy` | doubling sleep sequences (`Geometric`) and runs of them that restart at the base (`BackoffRuns`) |
| `Buffer` | `buffer.dfy` | `bytes.Buffer.ReadString`: the first delimited line, or draining the buffer on a miss |
| `ArClient` | `arclient.dfy` | the client record, `Dial`, `Reconnect`, `ReadString`, `Write`, and one pass of each retry loop |
| `ReadProofs` | `read_proofs.dfy` | what `ReadString` guarantees for every environment |
| `WriteProofs` | `write_proofs.dfy` | what `Write` guarantees for every environment |
| `Scenarios` | `scenarios.dfy` | concrete runs, and consequences of the general lemmas for single trace steps |

### Durations and connections

- Durations are natural numbers of nanoseconds, so `time.Second` is `1_000_000_000`.
- The client records every connection it has held. `History(c)` is the closed connections in order, followed by the live one.
- `Accounts(c, env, c', env', trace)` holds when all of the following are true:
  - the consumed answers are exactly the ones the trace shows;
  - the retry policy is unchanged;
  - each successful reconnect appended its connection to the history;
  - the read deadline was re-armed with the base interval exactly when some reconnect succeeded.

### Reading a trace

- `Tries(tr)` lists the attempts the retry loops count: every read, and every refused dial. Each iteration of a loop makes at most one.
- An operation restarts after a successful read (`ReadString`, line 73) or after any write (`Write`, line 97). `SinceRestart(op, tr)` is the part of the trace after the last restart: the steps of the last pass.
- `Unanswered(q, op, env)` says the transport call that phase `q` waits for has no answer at the head of `env`.
- `Paced(op, tr, base, t)` says every sleep lasts the delay in force. That delay is `t` at the start, doubles after each sleep (lines 52 and 90), and returns to `base` after each restart.
- `OnLive(tr, conn)` says every read and write goes through the connection that is live at that point. That is `conn`, or the last connection a successful dial in `tr` installed.

### Where the code departs from the documented design

The model follows the code.

- **Dial before close.** `reconnect` closes the old connection only after the new dial succeeds (lines 27-33). A refused dial leaves the live connection alone. The documented design of the client closes the old handle first.
- **Read deadline.** The deadline is armed only by `reconnect`, and always with the base interval (line 35). The documented design bounds every read by the current backoff.
- **Read scratch is empty.** The slice read into has length 0 (line 47). A successful read therefore appends nothing (line 71).
  - `ReadString` returns a line if and only if one was already buffered when it was called (`ReadProofs.ReadStringSound`).
  - So after a miss `ReadString` never returns a line. Against a connection whose reads keep succeeding, it re-enters at line 73 without end, reading nothing each time (`Scenarios.ReadOkRereads`). Only a timed-out read, or `maxRetries` failed attempts in one pass, ends the call, and then with `ErrMaxRetries`.
  - A run that delivers `"hello\n"` from the network after two failed dials, as the documented design walks through, cannot happen.
- **Buffer drained on a miss.** `bytes.Buffer.ReadString` (line 41) hands out the partial bytes and advances past them, so they are lost. The documented design keeps them buffered.
- **Backoff reset.** The backoff resets at every re-entry, not only at the start of a top-level call. So does the attempt counter. A `Write` whose resend fails again starts a new pass of `maxRetries` reconnects, so the number of attempts in one call has no fixed bound.
- **Zero-length read.** The documented design treats a zero-length read as a success that loops again. Here every successful read is such a read.

## Model

| member | source | states |
|---|---|---|
| Dial | arclient.go:17-24 | One dial and no retry. A refused or unanswered dial creates no client. A connected client has an empty buffer, 10 retries, a 1-second base interval, no deadline, and has held only the dialed connection. Each outcome is stated with its exact condition on the environment. |
| Reconnect | arclient.go:26-38 | A refused dial changes nothing and closes nothing. A successful dial closes the live connection exactly once, installs the new id, and arms the deadline with the base interval, not the current backoff. The buffer and the retry policy are kept, and no sleep happens. |
| Buffer.Scan | arclient.go:41 | `bytes.Buffer.ReadString`: a hit if and only if the delimiter is in the buffer. A hit splits the buffer into a line ending at its first delimiter, followed by the rest. A miss hands out the whole buffer. |
| Buffer.LineUnique | arclient.go:41 | Two lines that both start the same buffer are the same line with the same remainder: the first delimiter ends the line. |
| Buffer.ScanFindsFirstLine | arclient.go:41-43 | Scanning a line followed by anything returns exactly that line and that remainder. This connects `Scan` to its reference meaning `IsLine`. |
| ArClient.LiveIsLastOfHistory | arclient.go:32-33 | The connection live after a trace is the last entry of the client's history extended by the trace's successful dials. |
| ArClient.AccountsLive | arclient.go:26-38 | After any run the model accounts for, the live connection is the one the last successful reconnect of the trace installed, or the starting one if there was none. |
| ArClient.ReadString | arclient.go:40-43 | Fast path: with the delimiter buffered, the call returns a line and keeps the rest of the buffer. It consumes no answer, takes no step, and changes nothing else. |
| ArClient.ReadPass | arclient.go:49-59 | Iterations `i` to `maxRetries - 1` of the read loop, plus the exit at line 76. The pass consumes at most the environment it is given, and a pass that re-enters consumes at least one answer, so the recursion of `ReadString` is well founded. Its behaviour is stated by the `ReadProofs.ReadPass*` rows (effects, steps, budget, ends, tries, pacing, connection). |
| ArClient.TryRead | arclient.go:61-73 | The read of one iteration: timeout, failure, or success with re-entry. It has the same consumption contract as `ReadPass`. Its behaviour is stated by the `ReadProofs.TryRead*` rows. |
| ArClient.Write | arclient.go:79-82 | A first write that is accepted returns `Ok` with no sleep or reconnect, and leaves the client unchanged. |
| ArClient.WritePass | arclient.go:84-100 | Iterations `i` to `maxRetries - 1` of the write loop: sleep, reconnect, and re-enter after the first reconnect that succeeds. The pass consumes at most the environment it is given, and a pass that re-enters consumes at least one answer. Its behaviour is stated by the `WriteProofs.WritePass*` and `WriteProofs.Retry*` rows. |
| Backoff.GeometricDoubles | arclient.go:51-52 | The k-th element of a doubling run from `t` is `t * 2^k`. |
| ReadProofs.ReadPassEffects | arclient.go:49-76 | One pass of the read loop consumes exactly the answers its trace shows and keeps the retry policy. It changes connections only by successful reconnects, and touches the buffer only by appending the scratch bytes before a re-entry. |
| ReadProofs.RedialEffects | arclient.go:50-59 | The same, for an iteration that starts disconnected: sleep, reconnect, then continue or read. |
| ReadProofs.TryReadEffects | arclient.go:61-73 | The same, for the read of an iteration. A successful read appends the scratch bytes. |
| ReadProofs.ReadPassSteps | arclient.go:49-69 | A read pass never writes. A pass that starts disconnected sleeps first; otherwise it reads first. Every step admits its successor. A re-entry follows a successful read. The pass times out if and only if its last step is a timed-out read. |
| ReadProofs.RedialSteps | arclient.go:50-59 | The same, for an iteration that starts disconnected. |
| ReadProofs.TryReadSteps | arclient.go:61-69 | The same, for the read of an iteration. |
| ReadProofs.ReadPassBudget | arclient.go:49-59 | A pass runs at most `maxRetries - i` iterations, and exactly that many when it runs out. It sleeps at most once per iteration, and a pass that opens with a read sleeps fewer times than it iterates. Its k-th sleep lasts `t * 2^k`. |
| ReadProofs.RedialBudget | arclient.go:50-56 | The same, for an iteration that starts with a sleep. It uses at least one iteration. |
| ReadProofs.TryReadBudget | arclient.go:61-68 | The same, for an iteration that opens with a read. It sleeps strictly fewer times than it iterates. |
| ReadProofs.ReadPassEnds | arclient.go:49-73 | A read pass is stuck only when the transport call its steps leave pending has no answer: the read, or the reconnect after a sleep. A pass that does not re-enter holds no successful read. |
| ReadProofs.RedialEnds | arclient.go:50-59 | The same, for an iteration that starts disconnected. |
| ReadProofs.TryReadEnds | arclient.go:61-73 | The same, for the read of an iteration. |
| ReadProofs.ReadPassTries | arclient.go:49-68 | A read pass makes at most `maxRetries - i` tries (reads and refused dials). It makes exactly that many when it runs out, and fewer when it is stuck. |
| ReadProofs.RedialTries | arclient.go:50-59 | The same, for an iteration that starts disconnected. |
| ReadProofs.TryReadTries | arclient.go:61-68 | The same, for the read of an iteration. |
| ReadProofs.ReadPassPaced | arclient.go:46-52 | Every sleep of a read pass lasts the delay in force: `t` first, then doubled after each sleep. |
| ReadProofs.RedialPaced | arclient.go:50-56 | The same, for an iteration that starts disconnected. |
| ReadProofs.TryReadPaced | arclient.go:61-68 | The same, for the read of an iteration. |
| ReadProofs.ReadPassConn | arclient.go:54-61 | Every read of a pass goes through the connection live at that point: the starting one, or the last one a reconnect of the pass installed. |
| ReadProofs.RedialConn | arclient.go:50-61 | The same, for an iteration that starts disconnected. |
| ReadProofs.TryReadConn | arclient.go:61-68 | The same, for the read of an iteration. |
| ReadProofs.ReadStringSound | arclient.go:40-77 | `ReadString` consumes exactly the answers in its trace and never writes. It follows the loop's step order. It returns a line if and only if the delimiter was already buffered. On failure the buffer is empty. A trace that ends in a timeout means `ErrMaxRetries`. |
| ReadProofs.ReadStringBackoff | arclient.go:46-73 | The sleeps of a whole `ReadString` call, re-entries included, are doubling runs. Each run starts at the base interval and is at most `maxRetries - 1` long, because the first iteration of a pass reads instead of sleeping. |
| ReadProofs.ReadStringEnds | arclient.go:45-76 | `ReadString` ends with `EnvExhausted` only when its pending transport call has no answer and its last pass made fewer than `maxRetries` tries. It ends with `ErrMaxRetries` only after a timed-out read, or once its last pass made a try in each of its `maxRetries` iterations. |
| ReadProofs.ReadStringPaced | arclient.go:46-73 | Every sleep of a `ReadString` call lasts the base interval if it is the first of the call or the first after a successful read, and twice the previous sleep otherwise. |
| ReadProofs.ReadStringLive | arclient.go:54-73 | Every read of a `ReadString` call, re-entries included, goes through the connection live at that point. |
| ReadProofs.ReadsOnLiveConnection | arclient.go:61 | The k-th step of a `ReadString` call, if it is a read, uses the last connection of the client's history extended by the reconnects before step k. |
| WriteProofs.WritePassEffects | arclient.go:87-98 | A pass of the write loop consumes exactly the answers its trace shows. It keeps the retry policy and the buffer, and changes connections only by successful reconnects. |
| WriteProofs.RetryEffects | arclient.go:92-93 | The same, for an iteration whose reconnect is refused. |
| WriteProofs.WritePassSteps | arclient.go:87-97 | A write pass only sleeps and dials, with every dial preceded by a sleep. It never times out. It re-enters only right after a successful dial. |
| WriteProofs.RetrySteps | arclient.go:88-94 | The same, for an iteration whose reconnect is refused. |
| WriteProofs.WritePassBudget | arclient.go:85-100 | A write pass runs at most `maxRetries - i` iterations, and exactly that many when it runs out. Every iteration sleeps once, and the k-th sleep lasts `t * 2^k`. |
| WriteProofs.RetryBudget | arclient.go:89-95 | The same, for an iteration whose reconnect is refused. |
| WriteProofs.WritePassEnds | arclient.go:87-100 | A write pass is stuck only when the reconnect after its last sleep has no answer. It runs out only after a refused reconnect, or without any iteration. |
| WriteProofs.RetryEnds | arclient.go:88-95 | The same, for an iteration whose reconnect is refused. |
| WriteProofs.WritePassTries | arclient.go:87-100 | A write pass makes one try per refused reconnect: at most `maxRetries - i`, exactly that many when it runs out, and fewer when it is stuck or a reconnect succeeded. |
| WriteProofs.RetryTries | arclient.go:88-95 | The same, for an iteration whose reconnect is refused. |
| WriteProofs.WritePassPaced | arclient.go:85-90 | Every sleep of a write pass lasts the delay in force: `t` first, then doubled after each sleep. |
| WriteProofs.RetryPaced | arclient.go:88-93 | The same, for an iteration whose reconnect is refused. |
| WriteProofs.WriteEffects | arclient.go:79-101 | `Write` consumes exactly the answers in its trace, keeps the retry policy and the buffer, and changes connections only by successful reconnects. |
| WriteProofs.WriteSteps | arclient.go:79-101 | `Write` never reads and always hands over the whole message. It follows the loop's step order. |
| WriteProofs.WriteSucceedsIff | arclient.go:80-100 | `Write` returns `Ok` if and only if its last step is an accepted write of the message. |
| WriteProofs.WriteBackoff | arclient.go:85-97 | The sleeps of a whole `Write` call, resends included, are doubling runs. Each run starts at the base interval and is at most `maxRetries` long. |
| WriteProofs.WriteAcceptedOnce | arclient.go:80-97 | An accepted write is the last step of the call, and the call then returns `Ok`. |
| WriteProofs.WriteOpens | arclient.go:80 | A `Write` trace that is not empty opens with a write. |
| WriteProofs.WriteEnds | arclient.go:79-101 | `Write` ends with `EnvExhausted` if and only if its pending transport call, a write or the reconnect after a sleep, has no answer. It ends with `ErrMaxRetries` only right after a refused write or reconnect. |
| WriteProofs.WriteTries | arclient.go:84-100 | When `Write` fails with `ErrMaxRetries`, its last pass made a refused reconnect in each of its `maxRetries` iterations. When it stops with `EnvExhausted` after some write, that pass made fewer. |
| WriteProofs.WritePaced | arclient.go:85-97 | Every sleep of a `Write` call lasts the base interval if it is the first after a write, and twice the previous sleep otherwise. |
| WriteProofs.WriteLive | arclient.go:80-97 | Every write of a `Write` call, resends included, goes through the connection live at that point. |
| WriteProofs.WritesOnLiveConnection | arclient.go:80 | The k-th step of a `Write` call, if it is a write, uses the last connection of the client's history extended by the reconnects before step k. |
| Scenarios.ReadPassRefused | arclient.go:49-59 | A read pass that meets only refused dials uses up its remaining iterations. It consumes exactly those refusals, with doubling sleeps, and returns the client unchanged. |
| Scenarios.WritePassRefused | arclient.go:87-100 | The same, for the write loop. |
| Scenarios.ReadStringGivesUp | arclient.go:45-76 | With no buffered line, a failed read followed by `maxRetries - 1` refused dials ends in `ErrMaxRetries`. The sleeps are `base * 2^k` for k below `maxRetries - 1`, and the buffer is drained. |
| Scenarios.WriteGivesUp | arclient.go:84-100 | A refused write followed by `maxRetries` refused dials ends in `ErrMaxRetries`. The sleeps are `base * 2^k` for k below `maxRetries`, and the client is unchanged. |
| Scenarios.WriteResendsAfterRedial | arclient.go:80-97 | A refused write, a successful dial, then the whole message is written again. The old connection is closed, and the deadline is armed with the base interval. |
| Scenarios.NoRetriesGivesUp | arclient.go:45-76 | With no buffered line and `maxRetries` equal to 0, `ReadString` fails with `ErrMaxRetries` at once. It makes no transport call and no sleep, and only drains the buffer. |
| Scenarios.WriteRedialRound | arclient.go:80-97 | A refused write followed by a successful reconnect sleeps the base interval, moves to the new connection, and starts `Write` over, whatever the environment holds next. |
| Scenarios.WriteTwoResends | arclient.go:79-97 | Two refused writes, each followed by a successful reconnect, then an accepted write. Each write goes through the connection installed just before it, and both old connections are closed. |
| Scenarios.WriteBackoffResets | arclient.go:85-97 | In that run both sleeps last the base interval: the backoff starts over at each resend. |
| Scenarios.ReadRedialsThenTimesOut | arclient.go:49-65 | A failed read is followed by a sleep of the base interval and a reconnect. The next read uses the new connection; here it times out, and the call fails with `ErrMaxRetries`. |
| Scenarios.ReadTimeoutGivesUp | arclient.go:61-65 | A timed-out read returns `ErrMaxRetries` at once, consuming nothing after it. |
| Scenarios.ReadOkRereads | arclient.go:47-73 | A successful read brings no bytes. The call re-enters with an empty buffer and reads again. |
| Scenarios.TimeoutIsTerminal | arclient.go:61-65 | In any `ReadString` trace, a timed-out read is the last step, and the call returns `ErrMaxRetries`. |
| Scenarios.ReadFailureBacksOff | arclient.go:50-68 | In any `ReadString` trace, a failed read or a refused dial is followed by a sleep and then a dial. No read is attempted on a connection known to be broken. |
| Scenarios.WriteFailureBacksOff | arclient.go:84-94 | In any `Write` trace, a refused write or a refused dial is followed by a sleep and then a dial. |
| Scenarios.FreshClientNeverReads | arclient.go:23-73 | A freshly dialed client has an empty buffer, so no `ReadString` on it ever returns a line. |
| Scenarios.ReadStringTakesLine | arclient.go:41-43 | With a line at the head of the buffer, `ReadString` returns exactly that line and keeps what follows. |
| Scenarios.TwoBufferedLines | arclient.go:41-43 | With `"ab,cd,"` buffered and delimiter `,`, two calls return `"ab,"` and then `"cd,"`, with no transport call, and leave the buffer empty. |

## Left out

- Networking: `net.Dial`, `net.Conn` and `RemoteAddr` become environment answers and opaque connection ids. The network and address arguments of `Dial`, and the address `reconnect` redials, are not modelled.
- Wall-clock time: `time.Sleep` and `time.Now` become `Slept` steps in the trace. The deadline is kept as the delay it was armed with, not as an instant.
- Go error values: the `net.Error` type assertion and the `fmt.Errorf` strings become the answer and result enums. The errors of `Close` and `SetReadDeadline` are ignored, as the source ignores them.
- Strings: `ReadString` returns the line as bytes, not as a Go `string`.
- `EnvExhausted` is not a result of the source. It marks a run whose environment ran out before the operation finished.
- Concurrency: the source has no synchronisation, and concurrent callers are out of scope.
- ArClient.ReadPass, ArClient.TryRead, ArClient.WritePass: the backoff `t` doubles without the `int64` wrap-around of `time.Duration`. With the default 10 retries and a 1-second base, no such wrap can happen within one pass.
- ReadProofs.ReadPassBudget: bounds the number of sleeps by the number of iterations, rather than stating the exact count. An iteration that opens with a read does not sleep, so the exact count depends on how the pass ends.
- Scenarios.ReadStringGivesUp: requires `maxRetries >= 1`, because with no retries the pass ends before the first read. That run is stated on its own by `Scenarios.NoRetriesGivesUp`.

=== FILE: arclient.dfy ===
/**
 The resilient stream client of `arclient.go`: a connection handle, a read
 buffer and a retry policy. Operations are pure functions of the client and
 the environment; each returns its result, the new client, the environment
 left over and the trace of what it did.

 Each `for i := 0; i < c.maxRetries; i++` loop is a *pass*, modelled by
 `ReadPass`/`TryRead` and `WritePass`. A pass ends by exhausting its
 iterations, by a read timeout, by running out of environment, or by
 re-entering the operation from the top (lines 73 and 97); `ReadString` and
 `Write` perform that re-entry, with a fresh counter and a fresh backoff.
 */
module ArClient {
  import opened Events
  import opened Trace
  import opened Backoff
  import opened Buffer

  /** `time.Second`, in the nanoseconds a `time.Duration` counts. */
  const Second: nat := 1_000_000_000

  const DefaultMaxRetries: nat := 10

  /** The scratch slice `b` the read loop hands to `Conn.Read`; it has length 0. */
  const Scratch: seq<byte> := []

  /** The read deadline last armed on the connection, as a delay from the moment it was armed. */
  datatype Deadline = NoDeadline | ArmedFor(after: nat)

  datatype Client = Client(
    conn: ConnId,           // Conn
    rbuf: seq<byte>,        // rbuf
    maxRetries: nat,        // iterations per pass
    retryInterval: nat,     // base backoff, in nanoseconds
    closed: seq<ConnId>,    // connections closed by reconnects, in order
    deadline: Deadline)     // last SetReadDeadline

  /** Every connection the client has held, oldest first; the last one is live. */
  function History(c: Client): seq<ConnId>
  {
    c.closed + [c.conn]
  }

  /**
   Going from `c` with environment `env` to `c'` with `env'` by the steps
   `tr`: exactly the answers in `tr` were consumed, the retry policy is
   kept, each successful reconnect closed the live connection and installed
   the dialed one, and the deadline is re-armed with the base interval iff
   some reconnect succeeded.
   */
  predicate Accounts(c: Client, env: seq<Event>, c': Client, env': seq<Event>, tr: seq<Step>)
  {
    && env == Answers(tr) + env'
    && c'.maxRetries == c.maxRetries
    && c'.retryInterval == c.retryInterval
    && History(c') == History(c) + Redials(tr)
    && c'.deadline == (if Redials(tr) == [] then c.deadline else ArmedFor(c.retryInterval))
  }

  lemma AccountsChain(c: Client, env: seq<Event>, c1: Client, env1: seq<Event>, a: seq<Step>,
                      c2: Client, env2: seq<Event>, b: seq<Step>)
    requires Accounts(c, env, c1, env1, a) && Accounts(c1, env1, c2, env2, b)
    ensures Accounts(c, env, c2, env2, a + b)
    ensures Sleeps(a + b) == Sleeps(a) + Sleeps(b)
  {
    Projections(a, b);
  }

  /** Following the reconnects of `tr` from `c` ends on the last connection of its history. */
  lemma LiveIsLastOfHistory(c: Client, tr: seq<Step>)
    ensures var h := History(c) + Redials(tr);
      LiveAfter(c.conn, tr) == h[|h| - 1]
  {
    LiveAfterRedials(c.conn, tr);
    var rs := Redials(tr);
    assert (History(c) + rs)[|c.closed| + |rs|] == ([c.conn] + rs)[|rs|];
  }

  /** The live connection after `tr` is the one `LiveAfter` follows through its reconnects. */
  lemma AccountsLive(c: Client, env: seq<Event>, c': Client, env': seq<Event>, tr: seq<Step>)
    requires Accounts(c, env, c', env', tr)
    ensures c'.conn == LiveAfter(c.conn, tr)
  {
    LiveIsLastOfHistory(c, tr);
    assert History(c')[|History(c')| - 1] == c'.conn;
  }

  datatype Result<T> = Ok(value: T) | ErrMaxRetries | EnvExhausted

  datatype Outcome<T> = Outcome(result: Result<T>, client: Client, env: seq<Event>, trace: seq<Step>)

  datatype Opened = Connected(client: Client, rest: seq<Event>) | DialRefused(rest: seq<Event>) | DialUnanswered

  /** `Dial`: one dial, no retry; a client starts with an empty buffer and the default policy. */
  function Dial(env: seq<Event>): (r: Opened)
    ensures r.Connected? ==> |env| > 0 && env[0] == DialAns(DialOk(r.client.conn)) && r.rest == env[1..]
    ensures r.Connected? ==>
              && r.client.rbuf == []
              && r.client.maxRetries == DefaultMaxRetries
              && r.client.retryInterval == Second
              && History(r.client) == [r.client.conn]
              && r.client.deadline == NoDeadline
    ensures r.DialRefused? <==> |env| > 0 && env[0] == DialAns(DialFailed)
    ensures r.DialRefused? ==> r.rest == env[1..]
    ensures r.DialUnanswered? <==> |env| == 0 || !env[0].DialAns?
  {
    match AskDial(env)
    case NoAnswer => DialUnanswered
    case Answer(DialFailed, rest) => DialRefused(rest)
    case Answer(DialOk(id), rest) =>
      Connected(Client(id, [], DefaultMaxRetries, Second, [], NoDeadline), rest)
  }

  datatype RedialStatus = Redialed | RedialFailed | RedialUnanswered

  datatype Redial = Redial(status: RedialStatus, client: Client, env: seq<Event>, trace: seq<Step>)

  /**
   `reconnect`: dial first; only when the dial succeeds close the live
   connection, install the new one and arm the read deadline with the base
   interval.
   */
  function Reconnect(c: Client, env: seq<Event>): (r: Redial)
    ensures Accounts(c, env, r.client, r.env, r.trace)
    ensures r.client.rbuf == c.rbuf
    ensures r.status == RedialUnanswered <==> |env| == 0 || !env[0].DialAns?
    ensures r.status == RedialUnanswered ==> r.client == c && r.trace == []
    ensures r.status == RedialFailed <==> |env| > 0 && env[0] == DialAns(DialFailed)
    ensures r.status == RedialFailed ==> r.client == c && r.trace == [Dialed(DialFailed)]
    ensures r.status == Redialed ==>
              && r.trace == [Dialed(DialOk(r.client.conn))]
              && r.client.closed == c.closed + [c.conn]
              && r.client.deadline == ArmedFor(c.retryInterval)
    ensures r.status != RedialUnanswered ==> |r.env| < |env|
    ensures Sleeps(r.trace) == []
  {
    match AskDial(env)
    case NoAnswer => Redial(RedialUnanswered, c, env, [])
    case Answer(DialFailed, rest) =>
      assert env == [DialAns(DialFailed)] + rest;
      SingleStep(Dialed(DialFailed));
      Redial(RedialFailed, c, rest, [Dialed(DialFailed)])
    case Answer(DialOk(id), rest) =>
      assert env == [DialAns(DialOk(id))] + rest;
      SingleStep(Dialed(DialOk(id)));
      var c' := c.(conn := id, closed := c.closed + [c.conn], deadline := ArmedFor(c.retryInterval));
      Redial(Redialed, c', rest, [Dialed(DialOk(id))])
  }

  /** How a pass of a retry loop ended. */
  datatype PassEnd =
    | Reenter     // restart the whole operation (lines 73 and 97)
    | Exhausted   // all iterations used (lines 76 and 100)
    | TimedOut    // a read timed out (line 64)
    | Stuck       // the environment did not answer

  datatype Pass = Pass(end: PassEnd, client: Client, env: seq<Event>, trace: seq<Step>, iterations: nat)

  /** Sleeping changes nothing the environment or the client can see. */
  lemma AccountsSleep(c: Client, env: seq<Event>, c1: Client, env1: seq<Event>, tr: seq<Step>, t: nat)
    requires Accounts(c, env, c1, env1, tr)
    ensures Accounts(c, env, c1, env1, [Slept(t)] + tr)
    ensures Sleeps([Slept(t)] + tr) == [t] + Sleeps(tr)
  {
    Projections([Slept(t)], tr);
  }

  /** One more iteration in front of a doubling run of sleeps that started at `2 * t`. */
  lemma BackoffStep(t: nat, head: seq<Step>, tail: seq<Step>)
    requires Sleeps(head) == [t]
    requires Sleeps(tail) == Geometric(2 * t, |Sleeps(tail)|)
    ensures Sleeps(head + tail) == Geometric(t, |Sleeps(head + tail)|)
    ensures |Sleeps(head + tail)| == |Sleeps(tail)| + 1
  {
    Projections(head, tail);
    assert Geometric(t, |Sleeps(tail)| + 1) == [t] + Sleeps(tail);
  }

  /**
   Iterations `i` .. `maxRetries - 1` of the loop of `ReadString`
   (lines 49-59 and 76), in the state `disconnected` with backoff `t`.
   */
  function ReadPass(c: Client, env: seq<Event>, i: nat, disconnected: bool, t: nat): (p: Pass)
    requires i <= c.maxRetries
    ensures |p.env| <= |env|
    ensures p.end == Reenter ==> |p.env| < |env|
    decreases |env|, 1
  {
    if c.maxRetries <= i then Pass(Exhausted, c, env, [], 0)
    else if disconnected then
      var rd := Reconnect(c, env);
      var head := [Slept(t)] + rd.trace;
      match rd.status
      case RedialUnanswered =>
        Pass(Stuck, rd.client, rd.env, head, 1)
      case RedialFailed =>
        var p := ReadPass(rd.client, rd.env, i + 1, true, 2 * t);
        Pass(p.end, p.client, p.env, head + p.trace, p.iterations + 1)
      case Redialed =>
        var p := TryRead(rd.client, rd.env, i, 2 * t);
        Pass(p.end, p.client, p.env, head + p.trace, p.iterations)
    else
      TryRead(c, env, i, t)
  }

  /** One read of iteration `i` (lines 61-73) with backoff `t`. */
  function TryRead(c: Client, env: seq<Event>, i: nat, t: nat): (p: Pass)
    requires i < c.maxRetries
    ensures |p.env| <= |env|
    ensures p.end == Reenter ==> |p.env| < |env|
    decreases |env|, 0
  {
    match AskRead(env)
    case NoAnswer =>
      Pass(Stuck, c, env, [], 1)
    case Answer(ReadTimeout, rest) =>
      Pass(TimedOut, c, rest, [Read(c.conn, ReadTimeout)], 1)
    case Answer(ReadFailed, rest) =>
      var p := ReadPass(c, rest, i + 1, true, t);
      Pass(p.end, p.client, p.env, [Read(c.conn, ReadFailed)] + p.trace, p.iterations + 1)
    case Answer(ReadOk, rest) =>
      Pass(Reenter, c.(rbuf := c.rbuf + Scratch), rest, [Read(c.conn, ReadOk)], 1)
  }

  /**
   `ReadString`: a buffered line is returned at once, with no transport
   call and no sleep; otherwise the buffer is drained and a pass runs,
   re-entering from the top after every successful read.
   */
  function ReadString(c: Client, delim: byte, env: seq<Event>): (r: Outcome<seq<byte>>)
    ensures delim in c.rbuf ==>
              && r.result.Ok?
              && IsLine(r.result.value, delim)
              && r.result.value + r.client.rbuf == c.rbuf
              && r.client == c.(rbuf := r.client.rbuf)
              && r.env == env
              && r.trace == []
    decreases |env|
  {
    match Scan(c.rbuf, delim)
    case Found(line, rest) =>
      Outcome(Ok(line), c.(rbuf := rest), env, [])
    case Missing(_) =>
      var p := ReadPass(c.(rbuf := []), env, 0, false, c.retryInterval);
      match p.end
      case Reenter =>
        var o := ReadString(p.client, delim, p.env);
        Outcome(o.result, o.client, o.env, p.trace + o.trace)
      case Exhausted => Outcome(ErrMaxRetries, p.client, p.env, p.trace)
      case TimedOut => Outcome(ErrMaxRetries, p.client, p.env, p.trace)
      case Stuck => Outcome(EnvExhausted, p.client, p.env, p.trace)
  }

  /**
   Iterations `i` .. `maxRetries - 1` of the loop of `Write` (lines 84-100)
   with backoff `t`. `disconnected` is set before the loop and never
   cleared, so every iteration sleeps and reconnects; the flag is left out.
   */
  function WritePass(c: Client, env: seq<Event>, i: nat, t: nat): (p: Pass)
    requires i <= c.maxRetries
    ensures |p.env| <= |env|
    ensures p.end == Reenter ==> |p.env| < |env|
    decreases |env|
  {
    if c.maxRetries <= i then Pass(Exhausted, c, env, [], 0)
    else
      var rd := Reconnect(c, env);
      var head := [Slept(t)] + rd.trace;
      match rd.status
      case RedialUnanswered =>
        Pass(Stuck, rd.client, rd.env, head, 1)
      case RedialFailed =>
        var p := WritePass(rd.client, rd.env, i + 1, 2 * t);
        Pass(p.end, p.client, p.env, head + p.trace, p.iterations + 1)
      case Redialed =>
        Pass(Reenter, rd.client, rd.env, head, 1)
  }

  /**
   `Write`: one write that succeeds returns at once; on failure a pass of
   reconnects runs, and after the first successful reconnect the whole
   message is written again from the top.
   */
  function Write(c: Client, msg: seq<byte>, env: seq<Event>): (r: Outcome<()>)
    ensures |env| > 0 && env[0] == WriteAns(true) ==>
              r == Outcome(Ok(()), c, env[1..], [Wrote(c.conn, msg, true)])
    decreases |env|
  {
    match AskWrite(env)
    case NoAnswer =>
      Outcome(EnvExhausted, c, env, [])
    case Answer(ok, rest) =>
      var head := [Wrote(c.conn, msg, ok)];
      if ok then
        Outcome(Ok(()), c, rest, head)
      else
        var p := WritePass(c, rest, 0, c.retryInterval);
        if p.end == Reenter then
          var o := Write(p.client, msg, p.env);
          Outcome(o.result, o.client, o.env, head + p.trace + o.trace)
        else if p.end == Stuck then
          Outcome(EnvExhausted, p.client, p.env, head + p.trace)
        else
          Outcome(ErrMaxRetries, p.client, p.env, head + p.trace)
  }
}

=== FILE: backoff.dfy ===
/**
 Exponential backoff: within one pass of a retry loop the delay starts at
 the client's base interval and doubles after every sleep.
 */
module Backoff {

  function Pow2(k: nat): (r: nat)
    ensures r >= 1
  {
    if k == 0 then 1 else 2 * Pow2(k - 1)
  }

  /** The first `n` delays of a pass that starts at `t`. */
  function Geometric(t: nat, n: nat): (s: seq<nat>)
    ensures |s| == n
    decreases n
  {
    if n == 0 then [] else [t] + Geometric(2 * t, n - 1)
  }

  lemma Twice(t: nat, p: nat)
    ensures 2 * t * p == t * (2 * p)
  {
  }

  /** The k-th sleep of a pass, counting from 0, lasts `t * 2^k`. */
  lemma {:induction false} GeometricDoubles(t: nat, n: nat, k: nat)
    requires k < n
    ensures Geometric(t, n)[k] == t * Pow2(k)
    decreases k
  {
    if k > 0 {
      GeometricDoubles(2 * t, n - 1, k - 1);
      assert Geometric(t, n)[k] == Geometric(2 * t, n - 1)[k - 1];
      Twice(t, Pow2(k - 1));
    }
  }

  /**
   `s` is a sequence of passes, each a non-empty run of at most `max`
   doubling delays that restarts at `base`.
   */
  ghost predicate BackoffRuns(s: seq<nat>, base: nat, max: nat)
    decreases |s|
  {
    || |s| == 0
    || exists n :: 1 <= n <= |s| && n <= max && s[..n] == Geometric(base, n) && BackoffRuns(s[n..], base, max)
  }

  lemma PrependRun(g: seq<nat>, s: seq<nat>, base: nat, max: nat)
    requires g == Geometric(base, |g|) && |g| <= max
    requires BackoffRuns(s, base, max)
    ensures BackoffRuns(g + s, base, max)
  {
    if |g| == 0 {
      assert g + s == s;
    } else {
      var n := |g|;
      assert (g + s)[..n] == g;
      assert (g + s)[n..] == s;
    }
  }
}

=== FILE: buffer.dfy ===
/**
 The client's read buffer and `bytes.Buffer.ReadString`: scan for the first
 delimiter and hand out everything up to and including it. On a miss the
 buffer hands out what it holds and is left empty.
 */
module Buffer {
  import opened Events

  /** `line` ends with `delim` and holds no earlier `delim`. */
  predicate IsLine(line: seq<byte>, delim: byte)
  {
    && |line| > 0
    && line[|line| - 1] == delim
    && forall k :: 0 <= k < |line| - 1 ==> line[k] != delim
  }

  /** A hit splits the buffer; a miss drains it. */
  datatype Scanned = Found(line: seq<byte>, rest: seq<byte>) | Missing(drained: seq<byte>)

  function Scan(buf: seq<byte>, delim: byte): (s: Scanned)
    ensures s.Found? <==> delim in buf
    ensures s.Found? ==> s.line + s.rest == buf && IsLine(s.line, delim)
    ensures s.Missing? ==> s.drained == buf
    decreases |buf|
  {
    if |buf| == 0 then Missing([])
    else if buf[0] == delim then Found([delim], buf[1..])
    else match Scan(buf[1..], delim)
      case Found(line, rest) => Found([buf[0]] + line, rest)
      case Missing(tail) => Missing([buf[0]] + tail)
  }

  /** A buffer starts with at most one line: the first delimiter ends it. */
  lemma LineUnique(a: seq<byte>, ra: seq<byte>, b: seq<byte>, rb: seq<byte>, delim: byte)
    requires IsLine(a, delim) && IsLine(b, delim)
    requires a + ra == b + rb
    ensures a == b && ra == rb
  {
    assert (a + ra)[|a| - 1] == delim;
    assert (b + rb)[|b| - 1] == delim;
    assert a == (a + ra)[..|a|];
    assert b == (b + rb)[..|b|];
    assert ra == (a + ra)[|a|..];
    assert rb == (b + rb)[|b|..];
  }

  /** Scanning a line followed by anything finds exactly that line. */
  lemma ScanFindsFirstLine(line: seq<byte>, rest: seq<byte>, delim: byte)
    requires IsLine(line, delim)
    ensures Scan(line + rest, delim) == Found(line, rest)
  {
    var buf := line + rest;
    assert buf[|line| - 1] == delim;
    var s := Scan(buf, delim);
    LineUnique(s.line, s.rest, line, rest, delim);
  }
}

=== FILE: events.dfy ===
/**
 The network as the client sees it. Every question the client puts to its
 transport (dial, read, write) is answered by the next event of a finite
 environment sequence. A question whose answer is missing, or whose next
 event answers a different kind of question, is left unanswered: the
 operation is then undecided within the environment that was observed.
 */
module Events {

  newtype byte = b: int | 0 <= b < 256

  /** Opaque identity of a `net.Conn` handle. */
  type ConnId = nat

  /** Outcome of `Conn.Read`: success, a `net.Error` whose `Timeout()` holds, or any other error. */
  datatype ReadAnswer = ReadOk | ReadTimeout | ReadFailed

  /** Outcome of `net.Dial`: a fresh connection, or an error. */
  datatype DialAnswer = DialOk(conn: ConnId) | DialFailed

  /** One answer of the environment. `WriteAns(true)` is a `Conn.Write` that returned a nil error. */
  datatype Event =
    | WriteAns(ok: bool)
    | ReadAns(read: ReadAnswer)
    | DialAns(dial: DialAnswer)

  /** The answer to one question and the environment left after it. */
  datatype Answer<T> = NoAnswer | Answer(value: T, rest: seq<Event>)

  function AskWrite(env: seq<Event>): Answer<bool>
  {
    if |env| > 0 && env[0].WriteAns? then Answer(env[0].ok, env[1..]) else NoAnswer
  }

  function AskRead(env: seq<Event>): Answer<ReadAnswer>
  {
    if |env| > 0 && env[0].ReadAns? then Answer(env[0].read, env[1..]) else NoAnswer
  }

  function AskDial(env: seq<Event>): Answer<DialAnswer>
  {
    if |env| > 0 && env[0].DialAns? then Answer(env[0].dial, env[1..]) else NoAnswer
  }
}

=== FILE: read_proofs.dfy ===
/**
 What `ReadString` and its retry loop guarantee, for every client and every
 environment.
 */
module ReadProofs {
  import opened Events
  import opened Trace
  import opened Backoff
  import opened Buffer
  import opened ArClient

  /**
   A read pass consumes exactly the answers in its trace, keeps the retry
   policy, swaps connections only by successful reconnects, and leaves the
   buffer alone except for appending the scratch bytes before a re-entry.
   */
  lemma {:induction false} ReadPassEffects(c: Client, env: seq<Event>, i: nat, disconnected: bool, t: nat)
    requires i <= c.maxRetries
    ensures var p := ReadPass(c, env, i, disconnected, t);
      && Accounts(c, env, p.client, p.env, p.trace)
      && p.client.rbuf == c.rbuf + (if p.end == Reenter then Scratch else [])
    decreases |env|, 1, 1
  {
    if c.maxRetries <= i {
    } else if disconnected {
      RedialEffects(c, env, i, t);
    } else {
      TryReadEffects(c, env, i, t);
    }
  }

  /** The disconnected branch of an iteration (lines 50-59): sleep, reconnect, go on. */
  lemma {:induction false} RedialEffects(c: Client, env: seq<Event>, i: nat, t: nat)
    requires i < c.maxRetries
    ensures var p := ReadPass(c, env, i, true, t);
      && Accounts(c, env, p.client, p.env, p.trace)
      && p.client.rbuf == c.rbuf + (if p.end == Reenter then Scratch else [])
    decreases |env|, 1, 0
  {
    var rd := Reconnect(c, env);
    var head := [Slept(t)] + rd.trace;
    AccountsSleep(c, env, rd.client, rd.env, rd.trace, t);
    match rd.status
    case RedialUnanswered =>
    case RedialFailed =>
      ReadPassEffects(rd.client, rd.env, i + 1, true, 2 * t);
      var p := ReadPass(rd.client, rd.env, i + 1, true, 2 * t);
      assert ReadPass(c, env, i, true, t) == Pass(p.end, p.client, p.env, head + p.trace, p.iterations + 1);
      AccountsChain(c, env, rd.client, rd.env, head, p.client, p.env, p.trace);
    case Redialed =>
      TryReadEffects(rd.client, rd.env, i, 2 * t);
      var p := TryRead(rd.client, rd.env, i, 2 * t);
      assert ReadPass(c, env, i, true, t) == Pass(p.end, p.client, p.env, head + p.trace, p.iterations);
      AccountsChain(c, env, rd.client, rd.env, head, p.client, p.env, p.trace);
  }

  lemma {:induction false} TryReadEffects(c: Client, env: seq<Event>, i: nat, t: nat)
    requires i < c.maxRetries
    ensures var p := TryRead(c, env, i, t);
      && Accounts(c, env, p.client, p.env, p.trace)
      && p.client.rbuf == c.rbuf + (if p.end == Reenter then Scratch else [])
    decreases |env|, 0
  {
    match AskRead(env)
    case NoAnswer =>
    case Answer(a, rest) =>
      assert env == [ReadAns(a)] + rest;
      SingleStep(Read(c.conn, a));
      if a == ReadFailed {
        ReadPassEffects(c, rest, i + 1, true, t);
        var p := ReadPass(c, rest, i + 1, true, t);
        assert TryRead(c, env, i, t) == Pass(p.end, p.client, p.env, [Read(c.conn, ReadFailed)] + p.trace, p.iterations + 1);
        AccountsChain(c, env, c, rest, [Read(c.conn, ReadFailed)], p.client, p.env, p.trace);
      }
  }

  /**
   A read pass never writes and takes its steps in protocol order: one that
   starts disconnected sleeps first, a re-entry follows a successful read,
   and the pass times out exactly when its last step is a timed-out read.
   */
  lemma {:induction false} ReadPassSteps(c: Client, env: seq<Event>, i: nat, disconnected: bool, t: nat)
    requires i <= c.maxRetries
    ensures var p := ReadPass(c, env, i, disconnected, t);
      && ReadsOnly(p.trace)
      && Protocol(if disconnected then AwaitSleep else AwaitIo, p.trace)
      && (p.end == Reenter ==> EndsInRead(p.trace, ReadOk))
      && (p.end == TimedOut <==> EndsInRead(p.trace, ReadTimeout))
    decreases |env|, 1, 1
  {
    if c.maxRetries <= i {
    } else if disconnected {
      RedialSteps(c, env, i, t);
    } else {
      TryReadSteps(c, env, i, t);
    }
  }

  lemma {:induction false} RedialSteps(c: Client, env: seq<Event>, i: nat, t: nat)
    requires i < c.maxRetries
    ensures var p := ReadPass(c, env, i, true, t);
      && ReadsOnly(p.trace)
      && Protocol(AwaitSleep, p.trace)
      && (p.end == Reenter ==> EndsInRead(p.trace, ReadOk))
      && (p.end == TimedOut <==> EndsInRead(p.trace, ReadTimeout))
    decreases |env|, 1, 0
  {
    var rd := Reconnect(c, env);
    var head := [Slept(t)] + rd.trace;
    match rd.status
    case RedialUnanswered =>
    case RedialFailed =>
      ReadPassSteps(rd.client, rd.env, i + 1, true, 2 * t);
      var p := ReadPass(rd.client, rd.env, i + 1, true, 2 * t);
      assert ReadPass(c, env, i, true, t) == Pass(p.end, p.client, p.env, head + p.trace, p.iterations + 1);
      StepsAfterRedial(head, p.trace, p.end);
    case Redialed =>
      TryReadSteps(rd.client, rd.env, i, 2 * t);
      var p := TryRead(rd.client, rd.env, i, 2 * t);
      assert ReadPass(c, env, i, true, t) == Pass(p.end, p.client, p.env, head + p.trace, p.iterations);
      StepsAfterRedial(head, p.trace, p.end);
  }

  /** A sleep and a dial in front of the rest of a pass keep its shape. */
  lemma StepsAfterRedial(head: seq<Step>, tr: seq<Step>, end: PassEnd)
    requires |head| == 2 && head[0].Slept? && head[1].Dialed?
    requires ReadsOnly(tr) && Protocol(After(head[1]), tr)
    requires end == Reenter ==> EndsInRead(tr, ReadOk)
    requires end == TimedOut <==> EndsInRead(tr, ReadTimeout)
    ensures ReadsOnly(head + tr) && Protocol(AwaitSleep, head + tr)
    ensures end == Reenter ==> EndsInRead(head + tr, ReadOk)
    ensures end == TimedOut <==> EndsInRead(head + tr, ReadTimeout)
  {
    assert ReadsOnly(head) && Protocol(AwaitSleep, head);
    ProtocolConcat(AwaitSleep, head, tr);
    ReadsOnlyConcat(head, tr);
    if |tr| > 0 {
      LastOfConcat(head, tr);
    }
  }

  lemma {:induction false} TryReadSteps(c: Client, env: seq<Event>, i: nat, t: nat)
    requires i < c.maxRetries
    ensures var p := TryRead(c, env, i, t);
      && ReadsOnly(p.trace)
      && Protocol(AwaitIo, p.trace)
      && (p.end == Reenter ==> EndsInRead(p.trace, ReadOk))
      && (p.end == TimedOut <==> EndsInRead(p.trace, ReadTimeout))
    decreases |env|, 0
  {
    match AskRead(env)
    case NoAnswer =>
    case Answer(a, rest) =>
      if a == ReadFailed {
        ReadPassSteps(c, rest, i + 1, true, t);
        var p := ReadPass(c, rest, i + 1, true, t);
        assert TryRead(c, env, i, t) == Pass(p.end, p.client, p.env, [Read(c.conn, ReadFailed)] + p.trace, p.iterations + 1);
        ProtocolConcat(AwaitIo, [Read(c.conn, ReadFailed)], p.trace);
      }
  }

  /**
   One pass runs at most `maxRetries - i` iterations and uses them all
   when it ends exhausted; it sleeps at most once per iteration (never in
   the iteration that opens with a read), and its k-th sleep lasts
   `t * 2^k`.
   */
  lemma {:induction false} ReadPassBudget(c: Client, env: seq<Event>, i: nat, disconnected: bool, t: nat)
    requires i <= c.maxRetries
    ensures var p := ReadPass(c, env, i, disconnected, t);
      && p.iterations <= c.maxRetries - i
      && (p.end == Exhausted ==> p.iterations == c.maxRetries - i)
      && Sleeps(p.trace) == Geometric(t, |Sleeps(p.trace)|)
      && |Sleeps(p.trace)| <= p.iterations
      && (!disconnected && i < c.maxRetries ==> |Sleeps(p.trace)| < p.iterations)
    decreases |env|, 1, 1
  {
    if c.maxRetries <= i {
    } else if disconnected {
      RedialBudget(c, env, i, t);
    } else {
      TryReadBudget(c, env, i, t);
    }
  }

  lemma {:induction false} RedialBudget(c: Client, env: seq<Event>, i: nat, t: nat)
    requires i < c.maxRetries
    ensures var p := ReadPass(c, env, i, true, t);
      && 1 <= p.iterations <= c.maxRetries - i
      && (p.end == Exhausted ==> p.iterations == c.maxRetries - i)
      && Sleeps(p.trace) == Geometric(t, |Sleeps(p.trace)|)
      && |Sleeps(p.trace)| <= p.iterations
    decreases |env|, 1, 0
  {
    var rd := Reconnect(c, env);
    var head := [Slept(t)] + rd.trace;
    SleepFirst(t, rd.trace);
    match rd.status
    case RedialUnanswered =>
    case RedialFailed =>
      ReadPassBudget(rd.client, rd.env, i + 1, true, 2 * t);
      var p := ReadPass(rd.client, rd.env, i + 1, true, 2 * t);
      assert ReadPass(c, env, i, true, t) == Pass(p.end, p.client, p.env, head + p.trace, p.iterations + 1);
      BackoffStep(t, head, p.trace);
    case Redialed =>
      TryReadBudget(rd.client, rd.env, i, 2 * t);
      var p := TryRead(rd.client, rd.env, i, 2 * t);
      assert ReadPass(c, env, i, true, t) == Pass(p.end, p.client, p.env, head + p.trace, p.iterations);
      BackoffStep(t, head, p.trace);
  }

  lemma {:induction false} TryReadBudget(c: Client, env: seq<Event>, i: nat, t: nat)
    requires i < c.maxRetries
    ensures var p := TryRead(c, env, i, t);
      && 1 <= p.iterations <= c.maxRetries - i
      && (p.end == Exhausted ==> p.iterations == c.maxRetries - i)
      && Sleeps(p.trace) == Geometric(t, |Sleeps(p.trace)|)
      && |Sleeps(p.trace)| < p.iterations
    decreases |env|, 0
  {
    match AskRead(env)
    case NoAnswer =>
    case Answer(a, rest) =>
      SingleStep(Read(c.conn, a));
      if a == ReadFailed {
        ReadPassBudget(c, rest, i + 1, true, t);
        var p := ReadPass(c, rest, i + 1, true, t);
        assert TryRead(c, env, i, t) == Pass(p.end, p.client, p.env, [Read(c.conn, ReadFailed)] + p.trace, p.iterations + 1);
        Projections([Read(c.conn, ReadFailed)], p.trace);
      }
  }

  /**
   How a read pass may stop: it is stuck only when the question its last
   step leaves open (a read, or a reconnect after a sleep) has no answer,
   and only a re-entry contains a successful read.
   */
  lemma {:induction false} ReadPassEnds(c: Client, env: seq<Event>, i: nat, disconnected: bool, t: nat)
    requires i <= c.maxRetries
    ensures var p := ReadPass(c, env, i, disconnected, t);
      && (p.end == Stuck ==> Unanswered(EndPhase(if disconnected then AwaitSleep else AwaitIo, p.trace), Reading, p.env))
      && (p.end != Reenter ==> Unbroken(Reading, p.trace))
    decreases |env|, 1, 1
  {
    if c.maxRetries <= i {
    } else if disconnected {
      RedialEnds(c, env, i, t);
    } else {
      TryReadEnds(c, env, i, t);
    }
  }

  lemma {:induction false} RedialEnds(c: Client, env: seq<Event>, i: nat, t: nat)
    requires i < c.maxRetries
    ensures var p := ReadPass(c, env, i, true, t);
      && (p.end == Stuck ==> Unanswered(EndPhase(AwaitSleep, p.trace), Reading, p.env))
      && (p.end != Reenter ==> Unbroken(Reading, p.trace))
    decreases |env|, 1, 0
  {
    var rd := Reconnect(c, env);
    var head := [Slept(t)] + rd.trace;
    match rd.status
    case RedialUnanswered =>
      assert head == [Slept(t)];
      assert Answers([]) == [];
    case RedialFailed =>
      ReadPassEnds(rd.client, rd.env, i + 1, true, 2 * t);
      var p := ReadPass(rd.client, rd.env, i + 1, true, 2 * t);
      assert ReadPass(c, env, i, true, t) == Pass(p.end, p.client, p.env, head + p.trace, p.iterations + 1);
      assert head == [Slept(t), Dialed(DialFailed)];
      EndsAfterRedial(head, p.trace, p.end, p.env);
    case Redialed =>
      TryReadEnds(rd.client, rd.env, i, 2 * t);
      var p := TryRead(rd.client, rd.env, i, 2 * t);
      assert ReadPass(c, env, i, true, t) == Pass(p.end, p.client, p.env, head + p.trace, p.iterations);
      assert head == [Slept(t), Dialed(DialOk(rd.client.conn))];
      EndsAfterRedial(head, p.trace, p.end, p.env);
  }

  /** A sleep and a dial in front of the rest of a pass keep how it ends. */
  lemma EndsAfterRedial(head: seq<Step>, tr: seq<Step>, end: PassEnd, env: seq<Event>)
    requires |head| == 2 && head[0].Slept? && head[1].Dialed?
    requires end == Stuck ==> Unanswered(EndPhase(After(head[1]), tr), Reading, env)
    requires end != Reenter ==> Unbroken(Reading, tr)
    ensures end == Stuck ==> Unanswered(EndPhase(AwaitSleep, head + tr), Reading, env)
    ensures end != Reenter ==> Unbroken(Reading, head + tr)
  {
    EndPhaseConcat(AwaitSleep, head, tr);
    if end != Reenter {
      UnbrokenConcat(Reading, head, tr);
    }
  }

  lemma {:induction false} TryReadEnds(c: Client, env: seq<Event>, i: nat, t: nat)
    requires i < c.maxRetries
    ensures var p := TryRead(c, env, i, t);
      && (p.end == Stuck ==> Unanswered(EndPhase(AwaitIo, p.trace), Reading, p.env))
      && (p.end != Reenter ==> Unbroken(Reading, p.trace))
    decreases |env|, 0
  {
    match AskRead(env)
    case NoAnswer =>
    case Answer(a, rest) =>
      var s := Read(c.conn, a);
      if a == ReadFailed {
        ReadPassEnds(c, rest, i + 1, true, t);
        var p := ReadPass(c, rest, i + 1, true, t);
        assert TryRead(c, env, i, t) == Pass(p.end, p.client, p.env, [s] + p.trace, p.iterations + 1);
        EndPhaseConcat(AwaitIo, [s], p.trace);
        if p.end != Reenter {
          UnbrokenConcat(Reading, [s], p.trace);
        }
      }
  }

  /**
   A read pass completes one try per iteration it finishes (a failed read or
   a refused reconnect), plus the read that ends it, if any: at most
   `maxRetries - i` in all, exactly that many when it ends exhausted, and
   fewer when it is stuck.
   */
  lemma {:induction false} ReadPassTries(c: Client, env: seq<Event>, i: nat, disconnected: bool, t: nat)
    requires i <= c.maxRetries
    ensures var p := ReadPass(c, env, i, disconnected, t);
      && |Tries(p.trace)| <= c.maxRetries - i
      && (p.end == Exhausted ==> |Tries(p.trace)| == c.maxRetries - i)
      && (p.end == Stuck ==> |Tries(p.trace)| < c.maxRetries - i)
    decreases |env|, 1, 1
  {
    if c.maxRetries <= i {
      assert Tries([]) == [];
    } else if disconnected {
      RedialTries(c, env, i, t);
    } else {
      TryReadTries(c, env, i, t);
    }
  }

  lemma {:induction false} RedialTries(c: Client, env: seq<Event>, i: nat, t: nat)
    requires i < c.maxRetries
    ensures var p := ReadPass(c, env, i, true, t);
      && |Tries(p.trace)| <= c.maxRetries - i
      && (p.end == Exhausted ==> |Tries(p.trace)| == c.maxRetries - i)
      && (p.end == Stuck ==> |Tries(p.trace)| < c.maxRetries - i)
    decreases |env|, 1, 0
  {
    var rd := Reconnect(c, env);
    var head := [Slept(t)] + rd.trace;
    SleepFirst(t, rd.trace);
    match rd.status
    case RedialUnanswered =>

    case RedialFailed =>
      ReadPassTries(rd.client, rd.env, i + 1, true, 2 * t);
      var p := ReadPass(rd.client, rd.env, i + 1, true, 2 * t);
      assert ReadPass(c, env, i, true, t) == Pass(p.end, p.client, p.env, head + p.trace, p.iterations + 1);
      SingleStep(Dialed(DialFailed));
      Projections(head, p.trace);
    case Redialed =>
      TryReadTries(rd.client, rd.env, i, 2 * t);
      var p := TryRead(rd.client, rd.env, i, 2 * t);
      assert ReadPass(c, env, i, true, t) == Pass(p.end, p.client, p.env, head + p.trace, p.iterations);
      SingleStep(Dialed(DialOk(rd.client.conn)));
      Projections(head, p.trace);
  }

  lemma {:induction false} TryReadTries(c: Client, env: seq<Event>, i: nat, t: nat)
    requires i < c.maxRetries
    ensures var p := TryRead(c, env, i, t);
      && |Tries(p.trace)| <= c.maxRetries - i
      && (p.end == Exhausted ==> |Tries(p.trace)| == c.maxRetries - i)
      && (p.end == Stuck ==> |Tries(p.trace)| < c.maxRetries - i)
    decreases |env|, 0
  {
    match AskRead(env)
    case NoAnswer =>
      assert Tries([]) == [];
    case Answer(a, rest) =>
      var s := Read(c.conn, a);
      SingleStep(s);
      if a == ReadFailed {
        ReadPassTries(c, rest, i + 1, true, t);
        var p := ReadPass(c, rest, i + 1, true, t);
        assert TryRead(c, env, i, t) == Pass(p.end, p.client, p.env, [s] + p.trace, p.iterations + 1);
        Projections([s], p.trace);
      }
  }

  /**
   Every sleep of a read pass that starts with delay `t` lasts the delay in
   force: `t` first, doubled after each sleep.
   */
  lemma {:induction false} ReadPassPaced(c: Client, env: seq<Event>, i: nat, disconnected: bool, t: nat)
    requires i <= c.maxRetries
    ensures Paced(Reading, ReadPass(c, env, i, disconnected, t).trace, c.retryInterval, t)
    decreases |env|, 1, 1
  {
    if c.maxRetries <= i {
    } else if disconnected {
      RedialPaced(c, env, i, t);
    } else {
      TryReadPaced(c, env, i, t);
    }
  }

  lemma {:induction false} RedialPaced(c: Client, env: seq<Event>, i: nat, t: nat)
    requires i < c.maxRetries
    ensures Paced(Reading, ReadPass(c, env, i, true, t).trace, c.retryInterval, t)
    decreases |env|, 1, 0
  {
    var rd := Reconnect(c, env);
    var head := [Slept(t)] + rd.trace;
    var base := c.retryInterval;
    StepAlone(Reading, Slept(t), base, t, c.conn);
    match rd.status
    case RedialUnanswered =>
      assert head == [Slept(t)];
    case RedialFailed =>
      ReadPassPaced(rd.client, rd.env, i + 1, true, 2 * t);
      var p := ReadPass(rd.client, rd.env, i + 1, true, 2 * t);
      assert ReadPass(c, env, i, true, t) == Pass(p.end, p.client, p.env, head + p.trace, p.iterations + 1);
      PacedConcat(Reading, [Slept(t)], rd.trace, base, t);
      PacedConcat(Reading, head, p.trace, base, t);
    case Redialed =>
      TryReadPaced(rd.client, rd.env, i, 2 * t);
      var p := TryRead(rd.client, rd.env, i, 2 * t);
      assert ReadPass(c, env, i, true, t) == Pass(p.end, p.client, p.env, head + p.trace, p.iterations);
      PacedConcat(Reading, [Slept(t)], rd.trace, base, t);
      PacedConcat(Reading, head, p.trace, base, t);
  }

  lemma {:induction false} TryReadPaced(c: Client, env: seq<Event>, i: nat, t: nat)
    requires i < c.maxRetries
    ensures Paced(Reading, TryRead(c, env, i, t).trace, c.retryInterval, t)
    decreases |env|, 0
  {
    match AskRead(env)
    case NoAnswer =>
    case Answer(a, rest) =>
      var s := Read(c.conn, a);
      StepAlone(Reading, s, c.retryInterval, t, c.conn);
      if a == ReadFailed {
        ReadPassPaced(c, rest, i + 1, true, t);
        var p := ReadPass(c, rest, i + 1, true, t);
        assert TryRead(c, env, i, t) == Pass(p.end, p.client, p.env, [s] + p.trace, p.iterations + 1);
        PacedConcat(Reading, [s], p.trace, c.retryInterval, t);
      }
  }

  /**
   Every read of a pass goes through the connection that is live at that
   point: the one the pass started on, or the last one a reconnect of the
   pass installed.
   */
  lemma {:induction false} ReadPassConn(c: Client, env: seq<Event>, i: nat, disconnected: bool, t: nat)
    requires i <= c.maxRetries
    ensures OnLive(ReadPass(c, env, i, disconnected, t).trace, c.conn)
    decreases |env|, 1, 1
  {
    if c.maxRetries <= i {
    } else if disconnected {
      RedialConn(c, env, i, t);
    } else {
      TryReadConn(c, env, i, t);
    }
  }

  lemma {:induction false} RedialConn(c: Client, env: seq<Event>, i: nat, t: nat)
    requires i < c.maxRetries
    ensures OnLive(ReadPass(c, env, i, true, t).trace, c.conn)
    decreases |env|, 1, 0
  {
    var rd := Reconnect(c, env);
    var head := [Slept(t)] + rd.trace;
    assert RecoveryOnly(head);
    RecoveryOnLive(head, c.conn);
    match rd.status
    case RedialUnanswered =>
    case RedialFailed =>
      ReadPassConn(rd.client, rd.env, i + 1, true, 2 * t);
      var p := ReadPass(rd.client, rd.env, i + 1, true, 2 * t);
      assert ReadPass(c, env, i, true, t) == Pass(p.end, p.client, p.env, head + p.trace, p.iterations + 1);
      AccountsSleep(c, env, rd.client, rd.env, rd.trace, t);
      AccountsLive(c, env, rd.client, rd.env, head);
      OnLiveConcat(head, p.trace, c.conn);
    case Redialed =>
      TryReadConn(rd.client, rd.env, i, 2 * t);
      var p := TryRead(rd.client, rd.env, i, 2 * t);
      assert ReadPass(c, env, i, true, t) == Pass(p.end, p.client, p.env, head + p.trace, p.iterations);
      AccountsSleep(c, env, rd.client, rd.env, rd.trace, t);
      AccountsLive(c, env, rd.client, rd.env, head);
      OnLiveConcat(head, p.trace, c.conn);
  }

  lemma {:induction false} TryReadConn(c: Client, env: seq<Event>, i: nat, t: nat)
    requires i < c.maxRetries
    ensures OnLive(TryRead(c, env, i, t).trace, c.conn)
    decreases |env|, 0
  {
    match AskRead(env)
    case NoAnswer =>
    case Answer(a, rest) =>
      var s := Read(c.conn, a);
      StepAlone(Reading, s, c.retryInterval, t, c.conn);
      if a == ReadFailed {
        ReadPassConn(c, rest, i + 1, true, t);
        var p := ReadPass(c, rest, i + 1, true, t);
        assert TryRead(c, env, i, t) == Pass(p.end, p.client, p.env, [s] + p.trace, p.iterations + 1);
        OnLiveConcat([s], p.trace, c.conn);
      }
  }

  /**
   `ReadString` consumes exactly the answers in its trace, never writes,
   follows the retry protocol, and returns a line iff one was already
   buffered: the scratch slice it reads into is empty, so no byte from the
   network ever reaches the buffer, and a miss drains the buffer. A trace
   ending in a timeout means the call failed with `ErrMaxRetries`.
   */
  lemma {:induction false} ReadStringSound(c: Client, delim: byte, env: seq<Event>)
    ensures var r := ReadString(c, delim, env);
      && Accounts(c, env, r.client, r.env, r.trace)
      && ReadsOnly(r.trace)
      && Protocol(AwaitIo, r.trace)
      && (r.result.Ok? <==> delim in c.rbuf)
      && (!r.result.Ok? ==> r.client.rbuf == [])
      && (EndsInRead(r.trace, ReadTimeout) ==> r.result == ErrMaxRetries)
    decreases |env|
  {
    var r := ReadString(c, delim, env);
    match Scan(c.rbuf, delim)
    case Found(line, rest) =>
      assert r.trace == [];
      assert Answers([]) == [] && Redials([]) == [];
    case Missing(_) =>
      var drained := c.(rbuf := []);
      ReadPassEffects(drained, env, 0, false, c.retryInterval);
      ReadPassSteps(drained, env, 0, false, c.retryInterval);
      var p := ReadPass(drained, env, 0, false, c.retryInterval);
      if p.end == Reenter {
        ReadStringSound(p.client, delim, p.env);
        var o := ReadString(p.client, delim, p.env);
        AccountsChain(c, env, p.client, p.env, p.trace, o.client, o.env, o.trace);
        ProtocolConcat(AwaitIo, p.trace, o.trace);
        assert r.trace == p.trace + o.trace;
        if |o.trace| == 0 {
          assert r.trace == p.trace;
        } else {
          assert r.trace[|r.trace| - 1] == o.trace[|o.trace| - 1];
        }
      }
  }

  /**
   The sleeps of the pass `ReadString` runs on a miss: one doubling run
   from the base interval, at most `maxRetries - 1` long.
   */
  lemma MissRun(c: Client, env: seq<Event>)
    ensures var p := ReadPass(c, env, 0, false, c.retryInterval);
      && Sleeps(p.trace) == Geometric(c.retryInterval, |Sleeps(p.trace)|)
      && |Sleeps(p.trace)| <= (if c.maxRetries == 0 then 0 else c.maxRetries - 1)
      && p.client.maxRetries == c.maxRetries
      && p.client.retryInterval == c.retryInterval
  {
    ReadPassEffects(c, env, 0, false, c.retryInterval);
    ReadPassBudget(c, env, 0, false, c.retryInterval);
  }

  /**
   The sleeps of one `ReadString` call, re-entries included, are runs of
   doubling delays, each restarting at the base interval and each at most
   `maxRetries - 1` long: a pass opens with a read, so its first iteration
   never sleeps.
   */
  lemma ReadStringBackoff(c: Client, delim: byte, env: seq<Event>)
    ensures BackoffRuns(Sleeps(ReadString(c, delim, env).trace), c.retryInterval,
                        if c.maxRetries == 0 then 0 else c.maxRetries - 1)
  {
    ReadStringRuns(c, delim, env, if c.maxRetries == 0 then 0 else c.maxRetries - 1);
  }

  /** `ReadStringBackoff`, with the bound on each run named `max`. */
  lemma {:induction false} ReadStringRuns(c: Client, delim: byte, env: seq<Event>, max: nat)
    requires max == if c.maxRetries == 0 then 0 else c.maxRetries - 1
    ensures BackoffRuns(Sleeps(ReadString(c, delim, env).trace), c.retryInterval, max)
    decreases |env|
  {
    var r := ReadString(c, delim, env);
    match Scan(c.rbuf, delim)
    case Found(_, _) =>
      assert r.trace == [];
      assert Sleeps([]) == [];
    case Missing(_) =>
      var drained := c.(rbuf := []);
      MissRun(drained, env);
      var p := ReadPass(drained, env, 0, false, c.retryInterval);
      var g := Sleeps(p.trace);
      if p.end == Reenter {
        var o := ReadString(p.client, delim, p.env);
        ReadStringRuns(p.client, delim, p.env, max);
        assert r.trace == p.trace + o.trace;
        Projections(p.trace, o.trace);
        PrependRun(g, Sleeps(o.trace), c.retryInterval, max);
      } else {
        assert r.trace == p.trace;
        assert BackoffRuns([], c.retryInterval, max);
        PrependRun(g, [], c.retryInterval, max);
        assert g + [] == g;
      }
  }

  /** How the pass `ReadString` runs on a miss ends, as far as the call's result depends on it. */
  lemma MissEnds(c: Client, env: seq<Event>)
    ensures var p := ReadPass(c, env, 0, false, c.retryInterval);
      && p.client.maxRetries == c.maxRetries
      && (p.end == Reenter ==> EndsInRead(p.trace, ReadOk))
      && (p.end == TimedOut ==> EndsInRead(p.trace, ReadTimeout))
      && (p.end != Reenter ==> Unbroken(Reading, p.trace))
      && (p.end == Stuck ==> Unanswered(EndPhase(AwaitIo, p.trace), Reading, p.env) && |Tries(p.trace)| < c.maxRetries)
      && (p.end == Exhausted ==> |Tries(p.trace)| == c.maxRetries)
  {
    ReadPassEffects(c, env, 0, false, c.retryInterval);
    ReadPassSteps(c, env, 0, false, c.retryInterval);
    ReadPassEnds(c, env, 0, false, c.retryInterval);
    ReadPassTries(c, env, 0, false, c.retryInterval);
  }

  /**
   `ReadString` gives up with `EnvExhausted` only when the transport call
   its trace leaves pending (a read, or a reconnect after a sleep) has no
   answer, and before its last pass has used up its iterations. It fails
   with `ErrMaxRetries` only after a timed-out read or once the last pass
   (the steps after the last successful read) made a try in every one of
   its `maxRetries` iterations.
   */
  lemma {:induction false} ReadStringEnds(c: Client, delim: byte, env: seq<Event>)
    ensures var r := ReadString(c, delim, env);
      && (r.result == EnvExhausted ==>
            && Unanswered(EndPhase(AwaitIo, r.trace), Reading, r.env)
            && |Tries(SinceRestart(Reading, r.trace))| < c.maxRetries)
      && (r.result == ErrMaxRetries ==>
            || EndsInRead(r.trace, ReadTimeout)
            || |Tries(SinceRestart(Reading, r.trace))| == c.maxRetries)
    decreases |env|
  {
    match Scan(c.rbuf, delim)
    case Found(_, _) =>
    case Missing(_) =>
      var drained := c.(rbuf := []);
      MissEnds(drained, env);
      var p := ReadPass(drained, env, 0, false, c.retryInterval);
      if p.end == Reenter {
        ReadStringEnds(p.client, delim, p.env);
        var o := ReadString(p.client, delim, p.env);
        var r := ReadString(c, delim, env);
        assert r.trace == p.trace + o.trace;
        SinceRestartAfter(Reading, p.trace, o.trace);
        EndPhaseConcat(AwaitIo, p.trace, o.trace);
        if |o.trace| > 0 {
          assert r.trace[|r.trace| - 1] == o.trace[|o.trace| - 1];
        }
      } else {
        SinceRestartUnbroken(Reading, p.trace);
      }
  }

  /**
   Every sleep of a `ReadString` call lasts the delay in force: the base
   interval for the first sleep of the call and for the first sleep after
   each successful read, twice the previous sleep otherwise.
   */
  lemma {:induction false} ReadStringPaced(c: Client, delim: byte, env: seq<Event>)
    ensures Paced(Reading, ReadString(c, delim, env).trace, c.retryInterval, c.retryInterval)
    decreases |env|
  {
    match Scan(c.rbuf, delim)
    case Found(_, _) =>
    case Missing(_) =>
      var base := c.retryInterval;
      var drained := c.(rbuf := []);
      ReadPassEffects(drained, env, 0, false, base);
      ReadPassSteps(drained, env, 0, false, base);
      ReadPassPaced(drained, env, 0, false, base);
      var p := ReadPass(drained, env, 0, false, base);
      if p.end == Reenter {
        ReadStringPaced(p.client, delim, p.env);
        var o := ReadString(p.client, delim, p.env);
        assert ReadString(c, delim, env).trace == p.trace + o.trace;
        DelayAfterRestart(Reading, p.trace, base, base);
        PacedConcat(Reading, p.trace, o.trace, base, base);
      }
  }

  /** Every read of a `ReadString` call, re-entries included, goes through the connection live at that point. */
  lemma {:induction false} ReadStringLive(c: Client, delim: byte, env: seq<Event>)
    ensures OnLive(ReadString(c, delim, env).trace, c.conn)
    decreases |env|
  {
    match Scan(c.rbuf, delim)
    case Found(_, _) =>
    case Missing(_) =>
      var drained := c.(rbuf := []);
      ReadPassEffects(drained, env, 0, false, c.retryInterval);
      ReadPassConn(drained, env, 0, false, c.retryInterval);
      var p := ReadPass(drained, env, 0, false, c.retryInterval);
      if p.end == Reenter {
        ReadStringLive(p.client, delim, p.env);
        var o := ReadString(p.client, delim, p.env);
        assert ReadString(c, delim, env).trace == p.trace + o.trace;
        AccountsLive(drained, env, p.client, p.env, p.trace);
        OnLiveConcat(p.trace, o.trace, c.conn);
      }
  }

  /**
   The k-th step of a `ReadString` call, if a read, goes through the last
   connection of the client's history as the steps before it left it.
   */
  lemma ReadsOnLiveConnection(c: Client, delim: byte, env: seq<Event>, k: nat)
    requires k < |ReadString(c, delim, env).trace|
    requires ReadString(c, delim, env).trace[k].Read?
    ensures var tr := ReadString(c, delim, env).trace;
      var h := History(c) + Redials(tr[..k]);
      tr[k].via == h[|h| - 1]
  {
    var tr := ReadString(c, delim, env).trace;
    ReadStringLive(c, delim, env);
    OnLiveAt(tr, c.conn, k);
    LiveIsLastOfHistory(c, tr[..k]);
  }
}

=== FILE: scenarios.dfy ===
/**
 Concrete runs of the client against chosen environments, and the
 consequences of the general theorems for single steps of a trace.
 */
module Scenarios {
  import opened Events
  import opened Trace
  import opened Backoff
  import opened Buffer
  import opened ArClient
  import opened ReadProofs
  import opened WriteProofs

  /** `n` refused dials in a row. */
  function DialFailures(n: nat): (env: seq<Event>)
    ensures |env| == n
    ensures forall k :: 0 <= k < n ==> env[k] == DialAns(DialFailed)
  {
    if n == 0 then [] else [DialAns(DialFailed)] + DialFailures(n - 1)
  }

  /** The steps of `n` iterations whose reconnect is refused, the first sleeping `t`. */
  function Refusals(t: nat, n: nat): seq<Step>
    decreases n
  {
    if n == 0 then [] else [Slept(t), Dialed(DialFailed)] + Refusals(2 * t, n - 1)
  }

  /** Refused reconnects consume the refusals and sleep a doubling run. */
  lemma {:induction false} RefusalsAccount(t: nat, n: nat)
    ensures Answers(Refusals(t, n)) == DialFailures(n)
    ensures Sleeps(Refusals(t, n)) == Geometric(t, n)
    ensures Redials(Refusals(t, n)) == []
    decreases n
  {
    if n > 0 {
      RefusalsAccount(2 * t, n - 1);
      var step := [Slept(t), Dialed(DialFailed)];
      assert step == [Slept(t)] + [Dialed(DialFailed)];
      SingleStep(Slept(t));
      SingleStep(Dialed(DialFailed));
      Projections([Slept(t)], [Dialed(DialFailed)]);
      Projections(step, Refusals(2 * t, n - 1));
    }
  }

  /** A read pass that only meets refused dials runs out its remaining iterations. */
  lemma {:induction false} ReadPassRefused(c: Client, n: nat, rest: seq<Event>, i: nat, t: nat)
    requires i + n == c.maxRetries
    ensures ReadPass(c, DialFailures(n) + rest, i, true, t) == Pass(Exhausted, c, rest, Refusals(t, n), n)
  {
    var env := DialFailures(n) + rest;
    if n == 0 {
      assert env == rest;
    } else {
      assert env == [DialAns(DialFailed)] + (DialFailures(n - 1) + rest);
      ReadPassRefused(c, n - 1, rest, i + 1, 2 * t);
      assert [Slept(t)] + [Dialed(DialFailed)] + Refusals(2 * t, n - 1) == Refusals(t, n);
    }
  }

  /** The same for the reconnect loop of `Write`. */
  lemma {:induction false} WritePassRefused(c: Client, n: nat, rest: seq<Event>, i: nat, t: nat)
    requires i + n == c.maxRetries
    ensures WritePass(c, DialFailures(n) + rest, i, t) == Pass(Exhausted, c, rest, Refusals(t, n), n)
  {
    var env := DialFailures(n) + rest;
    if n == 0 {
      assert env == rest;
    } else {
      assert env == [DialAns(DialFailed)] + (DialFailures(n - 1) + rest);
      WritePassRefused(c, n - 1, rest, i + 1, 2 * t);
      assert [Slept(t)] + [Dialed(DialFailed)] + Refusals(2 * t, n - 1) == Refusals(t, n);
    }
  }

  /**
   A read that fails with no buffered line, followed by a refusal of every
   remaining reconnect, ends in `ErrMaxRetries` after `maxRetries - 1`
   sleeps of doubling length, with the buffer drained and the connection
   untouched.
   */
  lemma ReadStringGivesUp(c: Client, delim: byte, rest: seq<Event>)
    requires delim !in c.rbuf && c.maxRetries >= 1
    ensures var r := ReadString(c, delim, [ReadAns(ReadFailed)] + DialFailures(c.maxRetries - 1) + rest);
      && r == Outcome(ErrMaxRetries, c.(rbuf := []), rest, [Read(c.conn, ReadFailed)] + Refusals(c.retryInterval, c.maxRetries - 1))
      && Sleeps(r.trace) == Geometric(c.retryInterval, c.maxRetries - 1)
  {
    var drained := c.(rbuf := []);
    var n := c.maxRetries - 1;
    var env := [ReadAns(ReadFailed)] + DialFailures(n) + rest;
    assert env == [ReadAns(ReadFailed)] + (DialFailures(n) + rest);
    ReadPassRefused(drained, n, rest, 1, c.retryInterval);
    var tail := Refusals(c.retryInterval, n);
    assert TryRead(drained, env, 0, c.retryInterval) == Pass(Exhausted, drained, rest, [Read(c.conn, ReadFailed)] + tail, n + 1);
    assert ReadPass(drained, env, 0, false, c.retryInterval) == Pass(Exhausted, drained, rest, [Read(c.conn, ReadFailed)] + tail, n + 1);
    assert Scan(c.rbuf, delim).Missing?;
    RefusalsAccount(c.retryInterval, n);
    SingleStep(Read(c.conn, ReadFailed));
    Projections([Read(c.conn, ReadFailed)], Refusals(c.retryInterval, n));
  }

  /**
   A refused write followed by a refusal of every reconnect ends in
   `ErrMaxRetries` after `maxRetries` sleeps of doubling length, with the
   client unchanged.
   */
  lemma WriteGivesUp(c: Client, msg: seq<byte>, rest: seq<Event>)
    ensures var r := Write(c, msg, [WriteAns(false)] + DialFailures(c.maxRetries) + rest);
      && r == Outcome(ErrMaxRetries, c, rest, [Wrote(c.conn, msg, false)] + Refusals(c.retryInterval, c.maxRetries))
      && Sleeps(r.trace) == Geometric(c.retryInterval, c.maxRetries)
  {
    var env := [WriteAns(false)] + DialFailures(c.maxRetries) + rest;
    assert env == [WriteAns(false)] + (DialFailures(c.maxRetries) + rest);
    WritePassRefused(c, c.maxRetries, rest, 0, c.retryInterval);
    RefusalsAccount(c.retryInterval, c.maxRetries);
    SingleStep(Wrote(c.conn, msg, false));
    Projections([Wrote(c.conn, msg, false)], Refusals(c.retryInterval, c.maxRetries));
  }

  /** The sleeps of one resend round: a step, a sleep, a step. */
  lemma RoundSleeps(before: Step, t: nat, after: Step)
    requires !before.Slept? && !after.Slept?
    ensures Sleeps([before, Slept(t), after]) == [t]
  {
    assert [before, Slept(t), after] == [before] + ([Slept(t)] + [after]);
    Projections([before], [Slept(t)] + [after]);
    Projections([Slept(t)], [after]);
    SingleStep(before);
    SingleStep(Slept(t));
    SingleStep(after);
  }

  /**
   A refused write followed by a successful reconnect: `Write` sleeps the
   base interval, moves to the dialed connection and starts over from the
   top, whatever the environment holds next.
   */
  lemma WriteRedialRound(c: Client, msg: seq<byte>, a: ConnId, tail: seq<Event>)
    requires c.maxRetries >= 1
    ensures var c1 := c.(conn := a, closed := c.closed + [c.conn], deadline := ArmedFor(c.retryInterval));
      var o := Write(c1, msg, tail);
      Write(c, msg, [WriteAns(false), DialAns(DialOk(a))] + tail)
        == Outcome(o.result, o.client, o.env, [Wrote(c.conn, msg, false), Slept(c.retryInterval), Dialed(DialOk(a))] + o.trace)
  {
    var t := c.retryInterval;
    var env := [WriteAns(false), DialAns(DialOk(a))] + tail;
    var c1 := c.(conn := a, closed := c.closed + [c.conn], deadline := ArmedFor(t));
    assert env[1..] == [DialAns(DialOk(a))] + tail;
    assert env[1..][1..] == tail;
    assert Reconnect(c, env[1..]) == Redial(Redialed, c1, tail, [Dialed(DialOk(a))]);
    assert WritePass(c, env[1..], 0, t) == Pass(Reenter, c1, tail, [Slept(t), Dialed(DialOk(a))], 1);
    assert [Wrote(c.conn, msg, false)] + [Slept(t), Dialed(DialOk(a))] == [Wrote(c.conn, msg, false), Slept(t), Dialed(DialOk(a))];
  }

  /**
   After a refused write, the first reconnect that succeeds is followed by
   a resend of the whole message; here the resend is accepted.
   */
  lemma WriteResendsAfterRedial(c: Client, msg: seq<byte>, id: ConnId, rest: seq<Event>)
    requires c.maxRetries >= 1
    ensures Write(c, msg, [WriteAns(false), DialAns(DialOk(id)), WriteAns(true)] + rest)
         == Outcome(Ok(()),
                    c.(conn := id, closed := c.closed + [c.conn], deadline := ArmedFor(c.retryInterval)),
                    rest,
                    [Wrote(c.conn, msg, false), Slept(c.retryInterval), Dialed(DialOk(id)), Wrote(id, msg, true)])
  {
    var tail := [WriteAns(true)] + rest;
    assert [WriteAns(false), DialAns(DialOk(id)), WriteAns(true)] + rest == [WriteAns(false), DialAns(DialOk(id))] + tail;
    WriteRedialRound(c, msg, id, tail);
    var c1 := c.(conn := id, closed := c.closed + [c.conn], deadline := ArmedFor(c.retryInterval));
    assert Write(c1, msg, tail) == Outcome(Ok(()), c1, rest, [Wrote(id, msg, true)]);
  }

  /**
   Two refused writes, each followed by a successful reconnect, then an
   accepted write: every write goes through the connection installed just
   before it.
   */
  lemma WriteTwoResends(c: Client, msg: seq<byte>, a: ConnId, b: ConnId, rest: seq<Event>)
    requires c.maxRetries >= 1
    ensures Write(c, msg, [WriteAns(false), DialAns(DialOk(a)), WriteAns(false), DialAns(DialOk(b)), WriteAns(true)] + rest)
         == Outcome(Ok(()),
                    c.(conn := b, closed := c.closed + [c.conn, a], deadline := ArmedFor(c.retryInterval)),
                    rest,
                    [Wrote(c.conn, msg, false), Slept(c.retryInterval), Dialed(DialOk(a))]
                    + [Wrote(a, msg, false), Slept(c.retryInterval), Dialed(DialOk(b)), Wrote(b, msg, true)])
  {
    var t := c.retryInterval;
    var tail := [WriteAns(false), DialAns(DialOk(b)), WriteAns(true)] + rest;
    assert [WriteAns(false), DialAns(DialOk(a)), WriteAns(false), DialAns(DialOk(b)), WriteAns(true)] + rest
        == [WriteAns(false), DialAns(DialOk(a))] + tail;
    var c1 := c.(conn := a, closed := c.closed + [c.conn], deadline := ArmedFor(t));
    WriteRedialRound(c, msg, a, tail);
    WriteResendsAfterRedial(c1, msg, b, rest);
    assert c1.closed + [c1.conn] == c.closed + [c.conn, a];
  }

  /**
   In the run of `WriteTwoResends` the backoff starts over at the base
   interval after each write, so both sleeps last the base interval.
   */
  lemma WriteBackoffResets(c: Client, msg: seq<byte>, a: ConnId, b: ConnId, rest: seq<Event>)
    requires c.maxRetries >= 1
    ensures Sleeps(Write(c, msg, [WriteAns(false), DialAns(DialOk(a)), WriteAns(false), DialAns(DialOk(b)), WriteAns(true)] + rest).trace)
         == [c.retryInterval, c.retryInterval]
  {
    var t := c.retryInterval;
    WriteTwoResends(c, msg, a, b, rest);
    var first := [Wrote(c.conn, msg, false), Slept(t), Dialed(DialOk(a))];
    var second := [Wrote(a, msg, false), Slept(t), Dialed(DialOk(b))];
    var last := [Wrote(b, msg, true)];
    assert second + last == [Wrote(a, msg, false), Slept(t), Dialed(DialOk(b)), Wrote(b, msg, true)];
    assert first + (second + last) == first + second + last;
    RoundSleeps(Wrote(c.conn, msg, false), t, Dialed(DialOk(a)));
    RoundSleeps(Wrote(a, msg, false), t, Dialed(DialOk(b)));
    SingleStep(Wrote(b, msg, true));
    Projections(first, second);
    Projections(first + second, last);
  }

  /** With no iterations to spend, a miss gives up at once: no transport call, no sleep. */
  lemma NoRetriesGivesUp(c: Client, delim: byte, env: seq<Event>)
    requires delim !in c.rbuf && c.maxRetries == 0
    ensures ReadString(c, delim, env) == Outcome(ErrMaxRetries, c.(rbuf := []), env, [])
  {
    assert Scan(c.rbuf, delim).Missing?;
  }

  /**
   A failed read is followed by a sleep of the base interval and a
   reconnect, and the next read goes through the new connection; here it
   times out and the call fails.
   */
  lemma ReadRedialsThenTimesOut(c: Client, delim: byte, id: ConnId, rest: seq<Event>)
    requires delim !in c.rbuf && c.maxRetries >= 2
    ensures ReadString(c, delim, [ReadAns(ReadFailed), DialAns(DialOk(id)), ReadAns(ReadTimeout)] + rest)
         == Outcome(ErrMaxRetries,
                    c.(conn := id, rbuf := [], closed := c.closed + [c.conn], deadline := ArmedFor(c.retryInterval)),
                    rest,
                    [Read(c.conn, ReadFailed), Slept(c.retryInterval), Dialed(DialOk(id)), Read(id, ReadTimeout)])
  {
    var t := c.retryInterval;
    var drained := c.(rbuf := []);
    var env := [ReadAns(ReadFailed), DialAns(DialOk(id)), ReadAns(ReadTimeout)] + rest;
    var env1 := [DialAns(DialOk(id)), ReadAns(ReadTimeout)] + rest;
    var env2 := [ReadAns(ReadTimeout)] + rest;
    assert env[1..] == env1 && env1[1..] == env2 && env2[1..] == rest;
    var c1 := drained.(conn := id, closed := c.closed + [c.conn], deadline := ArmedFor(t));
    assert Reconnect(drained, env1) == Redial(Redialed, c1, env2, [Dialed(DialOk(id))]);
    assert TryRead(c1, env2, 1, t) == Pass(TimedOut, c1, rest, [Read(id, ReadTimeout)], 1);
    var tail := [Slept(t), Dialed(DialOk(id)), Read(id, ReadTimeout)];
    assert ReadPass(drained, env1, 1, true, t) == Pass(TimedOut, c1, rest, tail, 1);
    assert TryRead(drained, env, 0, t) == Pass(TimedOut, c1, rest, [Read(c.conn, ReadFailed)] + tail, 2);
    assert Scan(c.rbuf, delim).Missing?;
  }

  /** A read timeout with no buffered line gives up at once, with nothing after it. */
  lemma ReadTimeoutGivesUp(c: Client, delim: byte, rest: seq<Event>)
    requires delim !in c.rbuf && c.maxRetries >= 1
    ensures ReadString(c, delim, [ReadAns(ReadTimeout)] + rest)
         == Outcome(ErrMaxRetries, c.(rbuf := []), rest, [Read(c.conn, ReadTimeout)])
  {
    var drained := c.(rbuf := []);
    var env := [ReadAns(ReadTimeout)] + rest;
    assert TryRead(drained, env, 0, c.retryInterval) == Pass(TimedOut, drained, rest, [Read(c.conn, ReadTimeout)], 1);
    assert Scan(c.rbuf, delim).Missing?;
  }

  /**
   A successful read brings no bytes: `ReadString` re-enters with the same
   empty buffer and reads again, here to a timeout.
   */
  lemma ReadOkRereads(c: Client, delim: byte, rest: seq<Event>)
    requires delim !in c.rbuf && c.maxRetries >= 1
    ensures ReadString(c, delim, [ReadAns(ReadOk), ReadAns(ReadTimeout)] + rest)
         == Outcome(ErrMaxRetries, c.(rbuf := []), rest, [Read(c.conn, ReadOk), Read(c.conn, ReadTimeout)])
  {
    var drained := c.(rbuf := []);
    var env := [ReadAns(ReadOk), ReadAns(ReadTimeout)] + rest;
    var env' := [ReadAns(ReadTimeout)] + rest;
    assert env[1..] == env';
    assert TryRead(drained, env, 0, c.retryInterval) == Pass(Reenter, drained, env', [Read(c.conn, ReadOk)], 1);
    assert Scan(c.rbuf, delim).Missing?;
    ReadTimeoutGivesUp(drained, delim, rest);
    assert [Read(c.conn, ReadOk)] + [Read(c.conn, ReadTimeout)] == [Read(c.conn, ReadOk), Read(c.conn, ReadTimeout)];
  }

  /** A timed-out read is the last step of `ReadString`, and the call fails. */
  lemma TimeoutIsTerminal(c: Client, delim: byte, env: seq<Event>, k: nat)
    requires k < |ReadString(c, delim, env).trace|
    requires ReadString(c, delim, env).trace[k].Read? && ReadString(c, delim, env).trace[k].outcome == ReadTimeout
    ensures k == |ReadString(c, delim, env).trace| - 1
    ensures ReadString(c, delim, env).result == ErrMaxRetries
  {
    ReadStringSound(c, delim, env);
    FinishedIsLast(AwaitIo, ReadString(c, delim, env).trace, k);
  }

  /**
   A read that fails for any other reason is followed by a sleep and a
   dial before anything else, and a refused dial by another sleep: no read
   is attempted on a connection known to be broken.
   */
  lemma ReadFailureBacksOff(c: Client, delim: byte, env: seq<Event>, k: nat)
    requires k + 1 < |ReadString(c, delim, env).trace|
    requires var s := ReadString(c, delim, env).trace[k];
      (s.Read? && s.outcome == ReadFailed) || s == Dialed(DialFailed)
    ensures ReadString(c, delim, env).trace[k + 1].Slept?
    ensures k + 2 < |ReadString(c, delim, env).trace| ==> ReadString(c, delim, env).trace[k + 2].Dialed?
  {
    ReadStringSound(c, delim, env);
  }

  /** After a refused write, and after a refused dial, `Write` sleeps before anything else. */
  lemma WriteFailureBacksOff(c: Client, msg: seq<byte>, env: seq<Event>, k: nat)
    requires k + 1 < |Write(c, msg, env).trace|
    requires var s := Write(c, msg, env).trace[k];
      (s.Wrote? && !s.accepted) || s == Dialed(DialFailed)
    ensures Write(c, msg, env).trace[k + 1].Slept?
    ensures k + 2 < |Write(c, msg, env).trace| ==> Write(c, msg, env).trace[k + 2].Dialed?
  {
    WriteSteps(c, msg, env);
  }

  /** A freshly dialed client has no buffered line, so no `ReadString` on it returns one. */
  lemma FreshClientNeverReads(env: seq<Event>, delim: byte, env': seq<Event>)
    requires Dial(env).Connected?
    ensures !ReadString(Dial(env).client, delim, env').result.Ok?
  {
    ReadStringSound(Dial(env).client, delim, env');
  }

  /**
   With a line at the head of the buffer, `ReadString` returns exactly that
   line, keeps what follows it, and touches nothing else.
   */
  lemma ReadStringTakesLine(c: Client, line: seq<byte>, rest: seq<byte>, delim: byte, env: seq<Event>)
    requires IsLine(line, delim) && c.rbuf == line + rest
    ensures ReadString(c, delim, env) == Outcome(Ok(line), c.(rbuf := rest), env, [])
  {
    ScanFindsFirstLine(line, rest, delim);
  }

  /**
   Two lines buffered as "ab,cd,": two calls return them in order, with
   no transport call, and leave the buffer empty.
   */
  lemma TwoBufferedLines(c: Client, env: seq<Event>)
    requires c.rbuf == [97, 98, 44, 99, 100, 44]
    ensures var r1 := ReadString(c, 44, env);
      && r1.result == Ok([97, 98, 44])
      && var r2 := ReadString(r1.client, 44, r1.env);
      && r2.result == Ok([99, 100, 44])
      && r2.client == c.(rbuf := [])
      && r2.env == env
      && r1.trace + r2.trace == []
  {
    var first: seq<byte> := [97, 98, 44];
    var second: seq<byte> := [99, 100, 44];
    assert c.rbuf == first + second;
    assert IsLine(first, 44);
    ReadStringTakesLine(c, first, second, 44, env);
    assert IsLine(second, 44);
    assert second == second + [];
    ReadStringTakesLine(c.(rbuf := second), second, [], 44, env);
  }
}

=== FILE: trace.dfy ===
/**
 What an operation did, in order: the sleeps it took and the transport calls
 whose answers it consumed. The projections `Answers`, `Sleeps`, `Redials`
 and `Tries` read back the consumed environment events, the backoff delays,
 the connections installed by reconnects and the iterations a retry loop
 used up; `Protocol` is the order the retry loops impose on those steps,
 `Paced` the delay each sleep must last, and `OnLive` the connection each
 read and write must go through.
 */
module Trace {
  import opened Events

  datatype Step =
    | Slept(duration: nat)
    | Dialed(dialed: DialAnswer)
    | Read(via: ConnId, outcome: ReadAnswer)
    | Wrote(via: ConnId, payload: seq<byte>, accepted: bool)

  /** Concatenates `f` over the steps of `tr`, in order. */
  function Gather<T>(tr: seq<Step>, f: Step -> seq<T>): seq<T>
    decreases |tr|
  {
    if |tr| == 0 then [] else f(tr[0]) + Gather(tr[1..], f)
  }

  lemma {:induction false} GatherConcat<T>(a: seq<Step>, b: seq<Step>, f: Step -> seq<T>)
    ensures Gather(a + b, f) == Gather(a, f) + Gather(b, f)
    decreases |a|
  {
    if |a| == 0 {
      assert a + b == b;
    } else {
      assert (a + b)[1..] == a[1..] + b;
      GatherConcat(a[1..], b, f);
    }
  }

  function AnswerOf(s: Step): seq<Event>
  {
    match s
    case Slept(_) => []
    case Dialed(d) => [DialAns(d)]
    case Read(_, a) => [ReadAns(a)]
    case Wrote(_, _, ok) => [WriteAns(ok)]
  }

  function SleepOf(s: Step): seq<nat>
  {
    if s.Slept? then [s.duration] else []
  }

  function RedialOf(s: Step): seq<ConnId>
  {
    if s.Dialed? && s.dialed.DialOk? then [s.dialed.conn] else []
  }

  /** A read, or a refused reconnect: each ends one iteration of a retry loop without leaving it. */
  function TryOf(s: Step): seq<Step>
  {
    if s.Read? || s == Dialed(DialFailed) then [s] else []
  }

  /** The environment events a trace consumed, in order. */
  function Answers(tr: seq<Step>): seq<Event>
  {
    Gather(tr, AnswerOf)
  }

  /** The durations passed to `time.Sleep`, in order. */
  function Sleeps(tr: seq<Step>): seq<nat>
  {
    Gather(tr, SleepOf)
  }

  /** The connections installed by successful reconnects, in order. */
  function Redials(tr: seq<Step>): seq<ConnId>
  {
    Gather(tr, RedialOf)
  }

  /** The reads and the refused reconnects of a trace, in order. */
  function Tries(tr: seq<Step>): seq<Step>
  {
    Gather(tr, TryOf)
  }

  /** The projections distribute over concatenation. */
  lemma Projections(a: seq<Step>, b: seq<Step>)
    ensures Answers(a + b) == Answers(a) + Answers(b)
    ensures Sleeps(a + b) == Sleeps(a) + Sleeps(b)
    ensures Redials(a + b) == Redials(a) + Redials(b)
    ensures Tries(a + b) == Tries(a) + Tries(b)
  {
    GatherConcat(a, b, AnswerOf);
    GatherConcat(a, b, SleepOf);
    GatherConcat(a, b, RedialOf);
    GatherConcat(a, b, TryOf);
  }

  /** The projections of a one-step trace. */
  lemma SingleStep(s: Step)
    ensures Answers([s]) == AnswerOf(s)
    ensures Sleeps([s]) == SleepOf(s)
    ensures Redials([s]) == RedialOf(s)
    ensures Tries([s]) == TryOf(s)
  {
    assert [s][1..] == [];
    assert Gather([s], AnswerOf) == AnswerOf(s) + Gather([], AnswerOf);
    assert Gather([s], SleepOf) == SleepOf(s) + Gather([], SleepOf);
    assert Gather([s], RedialOf) == RedialOf(s) + Gather([], RedialOf);
    assert Gather([s], TryOf) == TryOf(s) + Gather([], TryOf);
  }

  /** A leading sleep adds its duration in front of the sleeps and nothing else. */
  lemma SleepFirst(t: nat, tr: seq<Step>)
    ensures Sleeps([Slept(t)] + tr) == [t] + Sleeps(tr)
    ensures Answers([Slept(t)] + tr) == Answers(tr)
    ensures Redials([Slept(t)] + tr) == Redials(tr)
    ensures Tries([Slept(t)] + tr) == Tries(tr)
  {
    Projections([Slept(t)], tr);
    SingleStep(Slept(t));
  }

  /** What the retry loops of `ReadString` and `Write` may do next. */
  datatype Phase = AwaitIo | AwaitSleep | AwaitDial | Finished

  /** The phase a step leaves the loop in. A timeout and an accepted write end the call. */
  function After(s: Step): Phase
  {
    match s
    case Read(_, ReadOk) => AwaitIo
    case Read(_, ReadFailed) => AwaitSleep
    case Read(_, ReadTimeout) => Finished
    case Wrote(_, _, ok) => if ok then Finished else AwaitSleep
    case Slept(_) => AwaitDial
    case Dialed(DialOk(_)) => AwaitIo
    case Dialed(DialFailed) => AwaitSleep
  }

  predicate Admits(q: Phase, s: Step)
  {
    match q
    case AwaitIo => s.Read? || s.Wrote?
    case AwaitSleep => s.Slept?
    case AwaitDial => s.Dialed?
    case Finished => false
  }

  /** `tr` starts with a step phase `q` admits and every step admits its successor. */
  predicate Protocol(q: Phase, tr: seq<Step>)
  {
    && (|tr| > 0 ==> Admits(q, tr[0]))
    && forall k :: 0 <= k < |tr| - 1 ==> Admits(After(tr[k]), tr[k + 1])
  }

  function EndPhase(q: Phase, tr: seq<Step>): Phase
  {
    if |tr| == 0 then q else After(tr[|tr| - 1])
  }

  lemma EndPhaseConcat(q: Phase, a: seq<Step>, b: seq<Step>)
    ensures EndPhase(q, a + b) == EndPhase(EndPhase(q, a), b)
  {
    if |b| > 0 {
      assert (a + b)[|a + b| - 1] == b[|b| - 1];
    } else {
      assert a + b == a;
    }
  }

  lemma ProtocolConcat(q: Phase, a: seq<Step>, b: seq<Step>)
    requires Protocol(q, a) && Protocol(EndPhase(q, a), b)
    ensures Protocol(q, a + b)
    ensures EndPhase(q, a + b) == EndPhase(EndPhase(q, a), b)
  {
    var ab := a + b;
    if |a| == 0 {
      assert ab == b;
    } else {
      forall k | 0 <= k < |ab| - 1
        ensures Admits(After(ab[k]), ab[k + 1])
      {
        if k < |a| - 1 {
          assert ab[k] == a[k] && ab[k + 1] == a[k + 1];
        } else if k == |a| - 1 {
          assert ab[k + 1] == b[0];
        } else {
          assert ab[k] == b[k - |a|] && ab[k + 1] == b[k - |a| + 1];
        }
      }
    }
    EndPhaseConcat(q, a, b);
  }

  /** Nothing follows a step that finishes the call. */
  lemma FinishedIsLast(q: Phase, tr: seq<Step>, k: nat)
    requires Protocol(q, tr)
    requires k < |tr| && After(tr[k]) == Finished
    ensures k == |tr| - 1
  {
    assert k + 1 < |tr| ==> Admits(After(tr[k]), tr[k + 1]);
  }

  /** The last step of `tr` is a read that ended with `a`. */
  predicate EndsInRead(tr: seq<Step>, a: ReadAnswer)
  {
    |tr| > 0 && tr[|tr| - 1].Read? && tr[|tr| - 1].outcome == a
  }

  /** The last step of `tr` is an accepted write of `msg`. */
  predicate EndsAccepted(tr: seq<Step>, msg: seq<byte>)
  {
    |tr| > 0 && tr[|tr| - 1].Wrote? && tr[|tr| - 1].accepted && tr[|tr| - 1].payload == msg
  }

  /** Only the steps of a reconnect loop: sleeps and dials. */
  predicate RecoveryOnly(tr: seq<Step>)
  {
    forall k :: 0 <= k < |tr| ==> tr[k].Slept? || tr[k].Dialed?
  }

  /** No write: the steps `ReadString` may take. */
  predicate ReadsOnly(tr: seq<Step>)
  {
    forall k :: 0 <= k < |tr| ==> !tr[k].Wrote?
  }

  /** No read, and every write hands over the whole of `msg`. */
  predicate WritesOnly(tr: seq<Step>, msg: seq<byte>)
  {
    forall k :: 0 <= k < |tr| ==> !tr[k].Read? && (tr[k].Wrote? ==> tr[k].payload == msg)
  }

  lemma ReadsOnlyConcat(a: seq<Step>, b: seq<Step>)
    requires ReadsOnly(a) && ReadsOnly(b)
    ensures ReadsOnly(a + b)
  {
    forall k | 0 <= k < |a + b|
      ensures !(a + b)[k].Wrote?
    {
      if k < |a| {
        assert (a + b)[k] == a[k];
      } else {
        assert (a + b)[k] == b[k - |a|];
      }
    }
  }

  /** A concatenation ends the way its last part does, when that part is not empty. */
  lemma LastOfConcat(a: seq<Step>, b: seq<Step>)
    requires |b| > 0
    ensures (a + b)[|a + b| - 1] == b[|b| - 1]
  {
  }

  /** Write-only traces concatenate. */
  lemma WritesOnlyConcat(a: seq<Step>, b: seq<Step>, msg: seq<byte>)
    requires WritesOnly(a, msg) && WritesOnly(b, msg)
    ensures WritesOnly(a + b, msg)
  {
    forall k | 0 <= k < |a + b|
      ensures !(a + b)[k].Read? && ((a + b)[k].Wrote? ==> (a + b)[k].payload == msg)
    {
      if k < |a| {
        assert (a + b)[k] == a[k];
      } else {
        assert (a + b)[k] == b[k - |a|];
      }
    }
  }

  /** The two operations with a retry loop. */
  datatype Op = Reading | Writing

  /**
   The step after which `op` starts over from the top with a fresh counter
   and a fresh backoff: a successful read for `ReadString` (line 73), a
   write for `Write` (the first attempt, and every resend of line 97).
   */
  predicate Restarts(op: Op, s: Step)
  {
    match op
    case Reading => s.Read? && s.outcome == ReadOk
    case Writing => s.Wrote?
  }

  /** No step of `tr` starts `op` over. */
  predicate Unbroken(op: Op, tr: seq<Step>)
  {
    forall k :: 0 <= k < |tr| ==> !Restarts(op, tr[k])
  }

  lemma UnbrokenConcat(op: Op, a: seq<Step>, b: seq<Step>)
    requires Unbroken(op, a) && Unbroken(op, b)
    ensures Unbroken(op, a + b)
  {
    forall k | 0 <= k < |a + b|
      ensures !Restarts(op, (a + b)[k])
    {
      if k < |a| {
        assert (a + b)[k] == a[k];
      } else {
        assert (a + b)[k] == b[k - |a|];
      }
    }
  }

  /** The steps after the last restart of `op`: the current pass of its retry loop. */
  function SinceRestart(op: Op, tr: seq<Step>): seq<Step>
    decreases |tr|
  {
    if |tr| == 0 then []
    else if Restarts(op, tr[|tr| - 1]) then []
    else SinceRestart(op, tr[..|tr| - 1]) + [tr[|tr| - 1]]
  }

  /** A trace without a restart is a single pass. */
  lemma {:induction false} SinceRestartUnbroken(op: Op, tr: seq<Step>)
    requires Unbroken(op, tr)
    ensures SinceRestart(op, tr) == tr
    decreases |tr|
  {
    if |tr| > 0 {
      var init := tr[..|tr| - 1];
      assert Unbroken(op, init);
      SinceRestartUnbroken(op, init);
      assert init + [tr[|tr| - 1]] == tr;
    }
  }

  /** Whatever came before a restart no longer matters. */
  lemma {:induction false} SinceRestartAfter(op: Op, a: seq<Step>, b: seq<Step>)
    requires |a| > 0 && Restarts(op, a[|a| - 1])
    ensures SinceRestart(op, a + b) == SinceRestart(op, b)
    decreases |b|
  {
    var ab := a + b;
    if |b| == 0 {
      assert ab == a;
    } else {
      assert ab[|ab| - 1] == b[|b| - 1];
      if !Restarts(op, b[|b| - 1]) {
        var init := b[..|b| - 1];
        assert ab[..|ab| - 1] == a + init;
        SinceRestartAfter(op, a, init);
      }
    }
  }

  /** Nor does whatever came before a trace that opens with a restart. */
  lemma {:induction false} SinceRestartFrom(op: Op, a: seq<Step>, b: seq<Step>)
    requires |b| > 0 && Restarts(op, b[0])
    ensures SinceRestart(op, a + b) == SinceRestart(op, b)
    decreases |b|
  {
    var ab := a + b;
    assert ab[|ab| - 1] == b[|b| - 1];
    if |b| > 1 && !Restarts(op, b[|b| - 1]) {
      var init := b[..|b| - 1];
      assert ab[..|ab| - 1] == a + init;
      assert init[0] == b[0];
      SinceRestartFrom(op, a, init);
    }
  }

  /**
   The question phase `q` puts to the transport has no answer at the head
   of `env`: a read or a write (as `op` asks) when the loop awaits I/O, a
   dial when it awaits a reconnect. A loop that awaits a sleep or is
   finished has no question pending.
   */
  predicate Unanswered(q: Phase, op: Op, env: seq<Event>)
  {
    match q
    case AwaitIo => |env| == 0 || (if op == Reading then !env[0].ReadAns? else !env[0].WriteAns?)
    case AwaitDial => |env| == 0 || !env[0].DialAns?
    case AwaitSleep => false
    case Finished => false
  }

  /** The delay in force once step `s` is done: doubled by a sleep, back to `base` after a restart. */
  function NextDelay(op: Op, s: Step, base: nat, t: nat): nat
  {
    if s.Slept? then 2 * t else if Restarts(op, s) then base else t
  }

  function DelayAfter(op: Op, tr: seq<Step>, base: nat, t: nat): nat
    decreases |tr|
  {
    if |tr| == 0 then t else DelayAfter(op, tr[1..], base, NextDelay(op, tr[0], base, t))
  }

  /**
   The backoff schedule of `op`: starting with delay `t`, every sleep of
   `tr` lasts the delay in force, which doubles after each sleep and is
   reset to `base` by each restart.
   */
  predicate Paced(op: Op, tr: seq<Step>, base: nat, t: nat)
    decreases |tr|
  {
    |tr| == 0 || ((tr[0].Slept? ==> tr[0].duration == t) && Paced(op, tr[1..], base, NextDelay(op, tr[0], base, t)))
  }

  lemma {:induction false} PacedConcat(op: Op, a: seq<Step>, b: seq<Step>, base: nat, t: nat)
    ensures Paced(op, a + b, base, t) <==> Paced(op, a, base, t) && Paced(op, b, base, DelayAfter(op, a, base, t))
    ensures DelayAfter(op, a + b, base, t) == DelayAfter(op, b, base, DelayAfter(op, a, base, t))
    decreases |a|
  {
    if |a| == 0 {
      assert a + b == b;
    } else {
      assert (a + b)[0] == a[0];
      assert (a + b)[1..] == a[1..] + b;
      PacedConcat(op, a[1..], b, base, NextDelay(op, a[0], base, t));
    }
  }

  /** Pacing and the live connection over a single step. */
  lemma StepAlone(op: Op, s: Step, base: nat, t: nat, conn: ConnId)
    ensures Paced(op, [s], base, t) <==> (s.Slept? ==> s.duration == t)
    ensures DelayAfter(op, [s], base, t) == NextDelay(op, s, base, t)
    ensures OnLive([s], conn) <==> ((s.Read? || s.Wrote?) ==> s.via == conn)
    ensures LiveAfter(conn, [s]) == NextConn(s, conn)
  {
    assert [s][0] == s && [s][1..] == [];
  }

  /** A restart puts the delay back to `base`, whatever it was. */
  lemma DelayAfterRestart(op: Op, tr: seq<Step>, base: nat, t: nat)
    requires |tr| > 0 && Restarts(op, tr[|tr| - 1])
    ensures DelayAfter(op, tr, base, t) == base
  {
    var init := tr[..|tr| - 1];
    var last := tr[|tr| - 1];
    assert init + [last] == tr;
    PacedConcat(op, init, [last], base, t);
    assert [last][1..] == [];
  }

  /** The live connection once step `s` is done: a successful reconnect installs the dialed one. */
  function NextConn(s: Step, conn: ConnId): ConnId
  {
    if s.Dialed? && s.dialed.DialOk? then s.dialed.conn else conn
  }

  function LiveAfter(conn: ConnId, tr: seq<Step>): ConnId
    decreases |tr|
  {
    if |tr| == 0 then conn else LiveAfter(NextConn(tr[0], conn), tr[1..])
  }

  /**
   Starting on `conn`, every read and write of `tr` goes through the
   connection installed by the last successful reconnect before it.
   */
  predicate OnLive(tr: seq<Step>, conn: ConnId)
    decreases |tr|
  {
    |tr| == 0 || (((tr[0].Read? || tr[0].Wrote?) ==> tr[0].via == conn) && OnLive(tr[1..], NextConn(tr[0], conn)))
  }

  lemma {:induction false} OnLiveConcat(a: seq<Step>, b: seq<Step>, conn: ConnId)
    ensures OnLive(a + b, conn) <==> OnLive(a, conn) && OnLive(b, LiveAfter(conn, a))
    ensures LiveAfter(conn, a + b) == LiveAfter(LiveAfter(conn, a), b)
    decreases |a|
  {
    if |a| == 0 {
      assert a + b == b;
    } else {
      assert (a + b)[0] == a[0];
      assert (a + b)[1..] == a[1..] + b;
      OnLiveConcat(a[1..], b, NextConn(a[0], conn));
    }
  }

  /** Under `OnLive`, the k-th step, if a read or a write, goes through the connection live after the steps before it. */
  lemma {:induction false} OnLiveAt(tr: seq<Step>, conn: ConnId, k: nat)
    requires OnLive(tr, conn)
    requires k < |tr| && (tr[k].Read? || tr[k].Wrote?)
    ensures tr[k].via == LiveAfter(conn, tr[..k])
    decreases k
  {
    if k > 0 {
      var next := NextConn(tr[0], conn);
      assert tr[1..][k - 1] == tr[k];
      OnLiveAt(tr[1..], next, k - 1);
      assert tr[..k][0] == tr[0] && tr[..k][1..] == tr[1..][..k - 1];
    }
  }

  /** The live connection is the last one a reconnect installed, or `conn` if none did. */
  lemma {:induction false} LiveAfterRedials(conn: ConnId, tr: seq<Step>)
    ensures LiveAfter(conn, tr) == ([conn] + Redials(tr))[|Redials(tr)|]
    decreases |tr|
  {
    if |tr| > 0 {
      var next := NextConn(tr[0], conn);
      LiveAfterRedials(next, tr[1..]);
      var rs := Redials(tr[1..]);
      assert Redials(tr) == RedialOf(tr[0]) + rs;
      if tr[0].Dialed? && tr[0].dialed.DialOk? {
        assert Redials(tr) == [next] + rs;
        assert ([conn] + ([next] + rs))[|rs| + 1] == ([next] + rs)[|rs|];
      } else {
        assert Redials(tr) == rs;
      }
    }
  }

  /** Sleeps and dials use no connection, so they are on whatever is live. */
  lemma {:induction false} RecoveryOnLive(tr: seq<Step>, conn: ConnId)
    requires RecoveryOnly(tr)
    ensures OnLive(tr, conn)
    decreases |tr|
  {
    if |tr| > 0 {
      assert RecoveryOnly(tr[1..]) by {
        forall k | 0 <= k < |tr[1..]| ensures tr[1..][k].Slept? || tr[1..][k].Dialed? {
          assert tr[1..][k] == tr[k + 1];
        }
      }
      RecoveryOnLive(tr[1..], NextConn(tr[0], conn));
    }
  }
}

=== FILE: write_proofs.dfy ===
/**
 What `Write` and its reconnect loop guarantee, for every client and every
 environment.
 */
module WriteProofs {
  import opened Events
  import opened Trace
  import opened Backoff
  import opened ArClient

  /**
   A write pass consumes exactly the answers in its trace, keeps the retry
   policy and the buffer, and swaps connections only by successful
   reconnects.
   */
  lemma {:induction false} WritePassEffects(c: Client, env: seq<Event>, i: nat, t: nat)
    requires i <= c.maxRetries
    ensures var p := WritePass(c, env, i, t);
      && Accounts(c, env, p.client, p.env, p.trace)
      && p.client.rbuf == c.rbuf
    decreases |env|, 1
  {
    if i < c.maxRetries {
      var rd := Reconnect(c, env);
      var head := [Slept(t)] + rd.trace;
      match rd.status
      case RedialUnanswered =>
        AccountsSleep(c, env, rd.client, rd.env, rd.trace, t);
        assert WritePass(c, env, i, t) == Pass(Stuck, rd.client, rd.env, head, 1);
      case Redialed =>
        AccountsSleep(c, env, rd.client, rd.env, rd.trace, t);
        assert WritePass(c, env, i, t) == Pass(Reenter, rd.client, rd.env, head, 1);
      case RedialFailed =>
        RetryEffects(c, env, i, t);
    }
  }

  /** The iteration whose reconnect is refused (lines 86-95): sleep, dial, go on. */
  lemma {:induction false} RetryEffects(c: Client, env: seq<Event>, i: nat, t: nat)
    requires i < c.maxRetries
    requires Reconnect(c, env).status == RedialFailed
    ensures var p := WritePass(c, env, i, t);
      && Accounts(c, env, p.client, p.env, p.trace)
      && p.client.rbuf == c.rbuf
    decreases |env|, 0
  {
    var rd := Reconnect(c, env);
    var head := [Slept(t)] + rd.trace;
    AccountsSleep(c, env, rd.client, rd.env, rd.trace, t);
    WritePassEffects(rd.client, rd.env, i + 1, 2 * t);
    var p := WritePass(rd.client, rd.env, i + 1, 2 * t);
    assert WritePass(c, env, i, t) == Pass(p.end, p.client, p.env, head + p.trace, p.iterations + 1);
    AccountsChain(c, env, rd.client, rd.env, head, p.client, p.env, p.trace);
  }

  /**
   A write pass only sleeps and dials, in protocol order starting with a
   sleep, never times out, and re-enters right after a successful dial.
   */
  lemma {:induction false} WritePassSteps(c: Client, env: seq<Event>, i: nat, t: nat)
    requires i <= c.maxRetries
    ensures var p := WritePass(c, env, i, t);
      && RecoveryOnly(p.trace)
      && Protocol(AwaitSleep, p.trace)
      && p.end != TimedOut
      && (p.end == Reenter ==> EndPhase(AwaitSleep, p.trace) == AwaitIo)
    decreases |env|, 1
  {
    if i < c.maxRetries {
      var rd := Reconnect(c, env);
      var head := [Slept(t)] + rd.trace;
      match rd.status
      case RedialUnanswered =>
        assert WritePass(c, env, i, t) == Pass(Stuck, rd.client, rd.env, head, 1);
        assert head == [Slept(t)];
      case Redialed =>
        assert WritePass(c, env, i, t) == Pass(Reenter, rd.client, rd.env, head, 1);
        assert head == [Slept(t), Dialed(DialOk(rd.client.conn))];
      case RedialFailed =>
        RetrySteps(c, env, i, t);
    }
  }

  lemma {:induction false} RetrySteps(c: Client, env: seq<Event>, i: nat, t: nat)
    requires i < c.maxRetries
    requires Reconnect(c, env).status == RedialFailed
    ensures var p := WritePass(c, env, i, t);
      && RecoveryOnly(p.trace)
      && Protocol(AwaitSleep, p.trace)
      && p.end != TimedOut
      && (p.end == Reenter ==> EndPhase(AwaitSleep, p.trace) == AwaitIo)
    decreases |env|, 0
  {
    var rd := Reconnect(c, env);
    var head := [Slept(t)] + rd.trace;
    WritePassSteps(rd.client, rd.env, i + 1, 2 * t);
    var p := WritePass(rd.client, rd.env, i + 1, 2 * t);
    assert WritePass(c, env, i, t) == Pass(p.end, p.client, p.env, head + p.trace, p.iterations + 1);
    assert head == [Slept(t), Dialed(DialFailed)];
    ProtocolConcat(AwaitSleep, head, p.trace);
  }

  /**
   A write pass runs at most `maxRetries - i` iterations, all of them when
   it ends exhausted; every iteration sleeps, and the k-th sleep lasts
   `t * 2^k`.
   */
  lemma {:induction false} WritePassBudget(c: Client, env: seq<Event>, i: nat, t: nat)
    requires i <= c.maxRetries
    ensures var p := WritePass(c, env, i, t);
      && p.iterations <= c.maxRetries - i
      && (p.end == Exhausted ==> p.iterations == c.maxRetries - i)
      && Sleeps(p.trace) == Geometric(t, |Sleeps(p.trace)|)
      && |Sleeps(p.trace)| == p.iterations
    decreases |env|, 1
  {
    if i < c.maxRetries {
      var rd := Reconnect(c, env);
      var head := [Slept(t)] + rd.trace;
      match rd.status
      case RedialUnanswered =>
        SleepFirst(t, rd.trace);
        assert WritePass(c, env, i, t) == Pass(Stuck, rd.client, rd.env, head, 1);
      case Redialed =>
        SleepFirst(t, rd.trace);
        assert WritePass(c, env, i, t) == Pass(Reenter, rd.client, rd.env, head, 1);
      case RedialFailed =>
        RetryBudget(c, env, i, t);
    }
  }

  lemma {:induction false} RetryBudget(c: Client, env: seq<Event>, i: nat, t: nat)
    requires i < c.maxRetries
    requires Reconnect(c, env).status == RedialFailed
    ensures var p := WritePass(c, env, i, t);
      && p.iterations <= c.maxRetries - i
      && (p.end == Exhausted ==> p.iterations == c.maxRetries - i)
      && Sleeps(p.trace) == Geometric(t, |Sleeps(p.trace)|)
      && |Sleeps(p.trace)| == p.iterations
    decreases |env|, 0
  {
    var rd := Reconnect(c, env);
    var head := [Slept(t)] + rd.trace;
    SleepFirst(t, rd.trace);
    WritePassBudget(rd.client, rd.env, i + 1, 2 * t);
    var p := WritePass(rd.client, rd.env, i + 1, 2 * t);
    assert WritePass(c, env, i, t) == Pass(p.end, p.client, p.env, head + p.trace, p.iterations + 1);
    BackoffStep(t, head, p.trace);
  }

  /**
   How a write pass may stop: stuck only when the reconnect after its last
   sleep has no answer, and exhausted only after a refused reconnect (or
   without any iteration).
   */
  lemma {:induction false} WritePassEnds(c: Client, env: seq<Event>, i: nat, t: nat)
    requires i <= c.maxRetries
    ensures var p := WritePass(c, env, i, t);
      && (p.end == Stuck ==> Unanswered(EndPhase(AwaitSleep, p.trace), Writing, p.env))
      && (p.end == Exhausted ==> EndPhase(AwaitSleep, p.trace) == AwaitSleep)
    decreases |env|, 1
  {
    if i < c.maxRetries {
      var rd := Reconnect(c, env);
      var head := [Slept(t)] + rd.trace;
      match rd.status
      case RedialUnanswered =>
        assert WritePass(c, env, i, t) == Pass(Stuck, rd.client, rd.env, head, 1);
        assert head == [Slept(t)];
        assert Answers([]) == [];
      case Redialed =>
        assert WritePass(c, env, i, t) == Pass(Reenter, rd.client, rd.env, head, 1);
      case RedialFailed =>
        RetryEnds(c, env, i, t);
    }
  }

  lemma {:induction false} RetryEnds(c: Client, env: seq<Event>, i: nat, t: nat)
    requires i < c.maxRetries
    requires Reconnect(c, env).status == RedialFailed
    ensures var p := WritePass(c, env, i, t);
      && (p.end == Stuck ==> Unanswered(EndPhase(AwaitSleep, p.trace), Writing, p.env))
      && (p.end == Exhausted ==> EndPhase(AwaitSleep, p.trace) == AwaitSleep)
    decreases |env|, 0
  {
    var rd := Reconnect(c, env);
    var head := [Slept(t)] + rd.trace;
    WritePassEnds(rd.client, rd.env, i + 1, 2 * t);
    var p := WritePass(rd.client, rd.env, i + 1, 2 * t);
    assert WritePass(c, env, i, t) == Pass(p.end, p.client, p.env, head + p.trace, p.iterations + 1);
    assert head == [Slept(t), Dialed(DialFailed)];
    EndPhaseConcat(AwaitSleep, head, p.trace);
  }

  /**
   A write pass makes one try per refused reconnect: at most
   `maxRetries - i`, exactly that many when it ends exhausted, and fewer
   when it is stuck or a reconnect succeeded.
   */
  lemma {:induction false} WritePassTries(c: Client, env: seq<Event>, i: nat, t: nat)
    requires i <= c.maxRetries
    ensures var p := WritePass(c, env, i, t);
      && |Tries(p.trace)| <= c.maxRetries - i
      && (p.end == Exhausted ==> |Tries(p.trace)| == c.maxRetries - i)
      && (p.end == Stuck || p.end == Reenter ==> |Tries(p.trace)| < c.maxRetries - i)
    decreases |env|, 1
  {
    if i < c.maxRetries {
      var rd := Reconnect(c, env);
      var head := [Slept(t)] + rd.trace;
      SleepFirst(t, rd.trace);
      match rd.status
      case RedialUnanswered =>
        assert WritePass(c, env, i, t) == Pass(Stuck, rd.client, rd.env, head, 1);
        assert Tries([]) == [];
      case Redialed =>
        assert WritePass(c, env, i, t) == Pass(Reenter, rd.client, rd.env, head, 1);
        SingleStep(Dialed(DialOk(rd.client.conn)));
      case RedialFailed =>
        RetryTries(c, env, i, t);
    } else {
      assert Tries([]) == [];
    }
  }

  lemma {:induction false} RetryTries(c: Client, env: seq<Event>, i: nat, t: nat)
    requires i < c.maxRetries
    requires Reconnect(c, env).status == RedialFailed
    ensures var p := WritePass(c, env, i, t);
      && |Tries(p.trace)| <= c.maxRetries - i
      && (p.end == Exhausted ==> |Tries(p.trace)| == c.maxRetries - i)
      && (p.end == Stuck || p.end == Reenter ==> |Tries(p.trace)| < c.maxRetries - i)
    decreases |env|, 0
  {
    var rd := Reconnect(c, env);
    var head := [Slept(t)] + rd.trace;
    SleepFirst(t, rd.trace);
    SingleStep(Dialed(DialFailed));
    WritePassTries(rd.client, rd.env, i + 1, 2 * t);
    var p := WritePass(rd.client, rd.env, i + 1, 2 * t);
    assert WritePass(c, env, i, t) == Pass(p.end, p.client, p.env, head + p.trace, p.iterations + 1);
    Projections(head, p.trace);
  }

  /**
   Every sleep of a write pass that starts with delay `t` lasts the delay
   in force: `t` first, doubled after each sleep.
   */
  lemma {:induction false} WritePassPaced(c: Client, env: seq<Event>, i: nat, t: nat)
    requires i <= c.maxRetries
    ensures Paced(Writing, WritePass(c, env, i, t).trace, c.retryInterval, t)
    decreases |env|, 1
  {
    if i < c.maxRetries {
      var rd := Reconnect(c, env);
      var head := [Slept(t)] + rd.trace;
      StepAlone(Writing, Slept(t), c.retryInterval, t, c.conn);
      PacedConcat(Writing, [Slept(t)], rd.trace, c.retryInterval, t);
      match rd.status
      case RedialUnanswered =>
        assert WritePass(c, env, i, t) == Pass(Stuck, rd.client, rd.env, head, 1);
      case Redialed =>
        assert WritePass(c, env, i, t) == Pass(Reenter, rd.client, rd.env, head, 1);
      case RedialFailed =>
        RetryPaced(c, env, i, t);
    }
  }

  lemma {:induction false} RetryPaced(c: Client, env: seq<Event>, i: nat, t: nat)
    requires i < c.maxRetries
    requires Reconnect(c, env).status == RedialFailed
    ensures Paced(Writing, WritePass(c, env, i, t).trace, c.retryInterval, t)
    decreases |env|, 0
  {
    var rd := Reconnect(c, env);
    var head := [Slept(t)] + rd.trace;
    assert head == [Slept(t), Dialed(DialFailed)];
    StepAlone(Writing, Slept(t), c.retryInterval, t, c.conn);
    StepAlone(Writing, Dialed(DialFailed), c.retryInterval, 2 * t, c.conn);
    PacedConcat(Writing, [Slept(t)], [Dialed(DialFailed)], c.retryInterval, t);
    WritePassPaced(rd.client, rd.env, i + 1, 2 * t);
    var p := WritePass(rd.client, rd.env, i + 1, 2 * t);
    assert WritePass(c, env, i, t) == Pass(p.end, p.client, p.env, head + p.trace, p.iterations + 1);
    PacedConcat(Writing, head, p.trace, c.retryInterval, t);
  }

  /**
   `Write` consumes exactly the answers in its trace, keeps the retry
   policy and the buffer, and swaps connections only by successful
   reconnects.
   */
  lemma {:induction false} WriteEffects(c: Client, msg: seq<byte>, env: seq<Event>)
    ensures var r := Write(c, msg, env);
      && Accounts(c, env, r.client, r.env, r.trace)
      && r.client.rbuf == c.rbuf
    decreases |env|
  {
    match AskWrite(env)
    case NoAnswer =>
      assert Answers([]) == [] && Redials([]) == [];
    case Answer(ok, rest) =>
      assert env == [WriteAns(ok)] + rest;
      SingleStep(Wrote(c.conn, msg, ok));
      var head := [Wrote(c.conn, msg, ok)];
      if !ok {
        WritePassEffects(c, rest, 0, c.retryInterval);
        var p := WritePass(c, rest, 0, c.retryInterval);
        AccountsChain(c, env, c, rest, head, p.client, p.env, p.trace);
        if p.end == Reenter {
          WriteEffects(p.client, msg, p.env);
          var o := Write(p.client, msg, p.env);
          assert Write(c, msg, env).trace == head + p.trace + o.trace;
          AccountsChain(c, env, p.client, p.env, head + p.trace, o.client, o.env, o.trace);
        }
      }
  }

  /**
   `Write` never reads, hands the whole message to every write it makes,
   and follows the retry protocol.
   */
  lemma {:induction false} WriteSteps(c: Client, msg: seq<byte>, env: seq<Event>)
    ensures var r := Write(c, msg, env);
      && WritesOnly(r.trace, msg)
      && Protocol(AwaitIo, r.trace)
    decreases |env|
  {
    match AskWrite(env)
    case NoAnswer =>
    case Answer(ok, rest) =>
      var head := [Wrote(c.conn, msg, ok)];
      if !ok {
        WritePassSteps(c, rest, 0, c.retryInterval);
        var p := WritePass(c, rest, 0, c.retryInterval);
        ProtocolConcat(AwaitIo, head, p.trace);
        var hp := head + p.trace;
        assert WritesOnly(p.trace, msg);
        WritesOnlyConcat(head, p.trace, msg);
        if p.end == Reenter {
          WriteSteps(p.client, msg, p.env);
          var o := Write(p.client, msg, p.env);
          assert Write(c, msg, env).trace == hp + o.trace;
          ProtocolConcat(AwaitIo, hp, o.trace);
          WritesOnlyConcat(hp, o.trace, msg);
        } else {
          assert Write(c, msg, env).trace == hp;
        }
      }
  }

  /** `Write` succeeds iff its last step is an accepted write of the message. */
  lemma {:induction false} WriteSucceedsIff(c: Client, msg: seq<byte>, env: seq<Event>)
    ensures var r := Write(c, msg, env);
      r.result.Ok? <==> EndsAccepted(r.trace, msg)
    decreases |env|
  {
    match AskWrite(env)
    case NoAnswer =>
    case Answer(ok, rest) =>
      var head := [Wrote(c.conn, msg, ok)];
      if !ok {
        WritePassSteps(c, rest, 0, c.retryInterval);
        var p := WritePass(c, rest, 0, c.retryInterval);
        var hp := head + p.trace;
        assert !EndsAccepted(hp, msg) by {
          if |p.trace| > 0 {
            assert hp[|hp| - 1] == p.trace[|p.trace| - 1];
          }
        }
        if p.end == Reenter {
          WriteSucceedsIff(p.client, msg, p.env);
          var o := Write(p.client, msg, p.env);
          var r := Write(c, msg, env);
          assert r.trace == hp + o.trace;
          if |o.trace| == 0 {
            assert r.trace == hp;
          } else {
            assert r.trace[|r.trace| - 1] == o.trace[|o.trace| - 1];
          }
        }
      }
  }

  /**
   The sleeps of one `Write` call, re-sends included, are runs of doubling
   delays, each restarting at the base interval and at most `maxRetries`
   long.
   */
  lemma {:induction false} WriteBackoff(c: Client, msg: seq<byte>, env: seq<Event>)
    ensures BackoffRuns(Sleeps(Write(c, msg, env).trace), c.retryInterval, c.maxRetries)
    decreases |env|
  {
    var r := Write(c, msg, env);
    match AskWrite(env)
    case NoAnswer =>
      assert Sleeps([]) == [];
    case Answer(ok, rest) =>
      var head := [Wrote(c.conn, msg, ok)];
      SingleStep(Wrote(c.conn, msg, ok));
      if ok {
        assert Sleeps(r.trace) == [];
      } else {
        WritePassEffects(c, rest, 0, c.retryInterval);
        WritePassBudget(c, rest, 0, c.retryInterval);
        var p := WritePass(c, rest, 0, c.retryInterval);
        var g := Sleeps(p.trace);
        Projections(head, p.trace);
        assert Sleeps(head + p.trace) == g;
        if p.end == Reenter {
          var o := Write(p.client, msg, p.env);
          WriteBackoff(p.client, msg, p.env);
          Projections(head + p.trace, o.trace);
          PrependRun(g, Sleeps(o.trace), c.retryInterval, c.maxRetries);
        } else {
          assert BackoffRuns([], c.retryInterval, c.maxRetries);
          PrependRun(g, [], c.retryInterval, c.maxRetries);
          assert g + [] == g;
        }
      }
  }

  /**
   An accepted write ends the call, and the call then succeeds: a
   successful `Write` is acknowledged by exactly one physical write.
   */
  lemma WriteAcceptedOnce(c: Client, msg: seq<byte>, env: seq<Event>, k: nat)
    requires k < |Write(c, msg, env).trace|
    requires Write(c, msg, env).trace[k].Wrote? && Write(c, msg, env).trace[k].accepted
    ensures k == |Write(c, msg, env).trace| - 1
    ensures Write(c, msg, env).result.Ok?
  {
    WriteSteps(c, msg, env);
    WriteSucceedsIff(c, msg, env);
    var tr := Write(c, msg, env).trace;
    FinishedIsLast(AwaitIo, tr, k);
    assert tr[k].payload == msg;
  }

  /** A `Write` trace that is not empty opens with a write. */
  lemma WriteOpens(c: Client, msg: seq<byte>, env: seq<Event>)
    requires |Write(c, msg, env).trace| > 0
    ensures Write(c, msg, env).trace[0].Wrote?
  {
    WriteSteps(c, msg, env);
  }

  /**
   `Write` gives up with `EnvExhausted` exactly when the transport call its
   trace leaves pending (a write, or a reconnect after a sleep) has no
   answer, and fails with `ErrMaxRetries` only right after a refused write
   or reconnect.
   */
  lemma {:induction false} WriteEnds(c: Client, msg: seq<byte>, env: seq<Event>)
    ensures var r := Write(c, msg, env);
      && (r.result == EnvExhausted <==> Unanswered(EndPhase(AwaitIo, r.trace), Writing, r.env))
      && (r.result == ErrMaxRetries ==> EndPhase(AwaitIo, r.trace) == AwaitSleep)
    decreases |env|
  {
    match AskWrite(env)
    case NoAnswer =>
    case Answer(ok, rest) =>
      var head := [Wrote(c.conn, msg, ok)];
      if !ok {
        WritePassSteps(c, rest, 0, c.retryInterval);
        WritePassEnds(c, rest, 0, c.retryInterval);
        var p := WritePass(c, rest, 0, c.retryInterval);
        var hp := head + p.trace;
        EndPhaseConcat(AwaitIo, head, p.trace);
        if p.end == Reenter {
          WriteEnds(p.client, msg, p.env);
          var o := Write(p.client, msg, p.env);
          assert Write(c, msg, env).trace == hp + o.trace;
          EndPhaseConcat(AwaitIo, hp, o.trace);
        } else {
          assert Write(c, msg, env).trace == hp;
        }
      }
  }

  /** What the tries of `Write` depend on in the pass that follows a refused write. */
  lemma RefusalTries(c: Client, env: seq<Event>)
    ensures var p := WritePass(c, env, 0, c.retryInterval);
      && p.client.maxRetries == c.maxRetries
      && p.end != TimedOut
      && Unbroken(Writing, p.trace)
      && (p.end == Exhausted ==> |Tries(p.trace)| == c.maxRetries)
      && (p.end == Stuck || p.end == Reenter ==> |Tries(p.trace)| < c.maxRetries)
  {
    WritePassEffects(c, env, 0, c.retryInterval);
    WritePassSteps(c, env, 0, c.retryInterval);
    WritePassTries(c, env, 0, c.retryInterval);
    var tr := WritePass(c, env, 0, c.retryInterval).trace;
    assert Unbroken(Writing, tr) by {
      forall k | 0 <= k < |tr| ensures !Restarts(Writing, tr[k]) {
        assert tr[k].Slept? || tr[k].Dialed?;
      }
    }
  }

  /**
   When `Write` fails, its last pass (the steps after its last write) made
   a try in each of its `maxRetries` iterations if the failure is
   `ErrMaxRetries`, and in fewer if it is `EnvExhausted` after some write.
   */
  lemma {:induction false} WriteTries(c: Client, msg: seq<byte>, env: seq<Event>)
    ensures var r := Write(c, msg, env);
      && (r.result == EnvExhausted ==> r.trace == [] || |Tries(SinceRestart(Writing, r.trace))| < c.maxRetries)
      && (r.result == ErrMaxRetries ==> |Tries(SinceRestart(Writing, r.trace))| == c.maxRetries)
    decreases |env|
  {
    match AskWrite(env)
    case NoAnswer =>
    case Answer(ok, rest) =>
      var head := [Wrote(c.conn, msg, ok)];
      if !ok {
        RefusalTries(c, rest);
        var p := WritePass(c, rest, 0, c.retryInterval);
        var hp := head + p.trace;
        SinceRestartUnbroken(Writing, p.trace);
        SinceRestartAfter(Writing, head, p.trace);
        if p.end == Reenter {
          WriteTries(p.client, msg, p.env);
          var o := Write(p.client, msg, p.env);
          assert Write(c, msg, env).trace == hp + o.trace;
          if |o.trace| > 0 {
            WriteOpens(p.client, msg, p.env);
            SinceRestartFrom(Writing, hp, o.trace);
          } else {
            assert hp + o.trace == hp;
          }
        } else {
          assert Write(c, msg, env).trace == hp;
        }
      }
  }

  /**
   Every sleep of a `Write` call lasts the delay in force: the base
   interval for the first sleep after each write, twice the previous sleep
   otherwise.
   */
  lemma {:induction false} WritePaced(c: Client, msg: seq<byte>, env: seq<Event>)
    ensures Paced(Writing, Write(c, msg, env).trace, c.retryInterval, c.retryInterval)
    decreases |env|
  {
    match AskWrite(env)
    case NoAnswer =>
    case Answer(ok, rest) =>
      var base := c.retryInterval;
      var head := [Wrote(c.conn, msg, ok)];
      StepAlone(Writing, head[0], base, base, c.conn);
      if !ok {
        WritePassEffects(c, rest, 0, base);
        WritePassPaced(c, rest, 0, base);
        var p := WritePass(c, rest, 0, base);
        var hp := head + p.trace;
        PacedConcat(Writing, head, p.trace, base, base);
        if p.end == Reenter {
          WritePaced(p.client, msg, p.env);
          var o := Write(p.client, msg, p.env);
          assert Write(c, msg, env).trace == hp + o.trace;
          if |o.trace| > 0 {
            WriteOpens(p.client, msg, p.env);
            assert Paced(Writing, o.trace, base, DelayAfter(Writing, hp, base, base));
          }
          PacedConcat(Writing, hp, o.trace, base, base);
        } else {
          assert Write(c, msg, env).trace == hp;
        }
      }
  }

  /** Every write of a `Write` call, re-sends included, goes through the connection live at that point. */
  lemma {:induction false} WriteLive(c: Client, msg: seq<byte>, env: seq<Event>)
    ensures OnLive(Write(c, msg, env).trace, c.conn)
    decreases |env|
  {
    match AskWrite(env)
    case NoAnswer =>
    case Answer(ok, rest) =>
      var head := [Wrote(c.conn, msg, ok)];
      StepAlone(Writing, head[0], c.retryInterval, c.retryInterval, c.conn);
      if !ok {
        WritePassEffects(c, rest, 0, c.retryInterval);
        WritePassSteps(c, rest, 0, c.retryInterval);
        var p := WritePass(c, rest, 0, c.retryInterval);
        var hp := head + p.trace;
        RecoveryOnLive(p.trace, c.conn);
        AccountsLive(c, rest, p.client, p.env, p.trace);
        OnLiveConcat(head, p.trace, c.conn);
        if p.end == Reenter {
          WriteLive(p.client, msg, p.env);
          var o := Write(p.client, msg, p.env);
          assert Write(c, msg, env).trace == hp + o.trace;
          OnLiveConcat(hp, o.trace, c.conn);
        } else {
          assert Write(c, msg, env).trace == hp;
        }
      }
  }

  /**
   The k-th step of a `Write` call, if a write, goes through the last
   connection of the client's history as the steps before it left it.
   */
  lemma WritesOnLiveConnection(c: Client, msg: seq<byte>, env: seq<Event>, k: nat)
    requires k < |Write(c, msg, env).trace|
    requires Write(c, msg, env).trace[k].Wrote?
    ensures var tr := Write(c, msg, env).trace;
      var h := History(c) + Redials(tr[..k]);
      tr[k].via == h[|h| - 1]
  {
    var tr := Write(c, msg, env).trace;
    WriteLive(c, msg, env);
    OnLiveAt(tr, c.conn, k);
    LiveIsLastOfHistory(c, tr[..k]);
  }
}
